=== FILE: README.md ===
# Receipt point of sale: a Dafny model of its core

This project models the core of a small point-of-sale application that
produces customer receipts ("reçus") for a shop in Madagascar. The model is
purely functional.

- **Receipt controller.** A cashier builds a current list of items. The controller validates and totals them. It then saves the receipt and either generates a PDF or prints it.
- **Store.** A settings table, a receipt counter that produces numbers `FACT-00001`, `FACT-00002`, …, a receipts table with a UNIQUE receipt number, and product statistics.
- **Thermal printer.** Composes two-column ESC/POS text for a 58 mm or 80 mm roll.
- **Laser printer.** Lays out a 48-column plain-text receipt.
- **Client-name formatter.** Tells people from organisations and normalises the client name.

The store is a record of maps. The controller is a state-transition function
over the current items and the store. A printer is a function from receipt
data and settings to what it emits: a sequence of commands for the thermal
device, and a sequence of lines for the laser text.

Modules, one per source file, plus shared building blocks:

| module | models |
|---|---|
| `NameFormatter`, `NameExamples` | `utils/name_formatter.py` |
| `LaserPrinter` | `_format_receipt_text` in `models/laser_printer.py` |
| `ThermalPrinter` | `models/thermal_printer.py` |
| `Database`, `ItemsJson` | `models/database.py`, including the JSON text of the `items` column |
| `ReceiptController` | `controllers/receipt_controller.py` |
| `Text`, `Numerals`, `Dates` | the Python built-ins the code relies on: `str.split/strip/upper/capitalize/center`, `int()`, `f"{n:05d}"`, `f"{x:,.0f}"`, `datetime.strptime(..., "%Y-%m-%d")` and `strftime` |
| `Receipts`, `Wrappers`, `Seqs` | the item and receipt records, `Option`, and small sequence lemmas |

## Model

| member | source | states |
|---|---|---|
| NameFormatter.IsOrganization | utils/name_formatter.py:12-32 | a name is an organisation exactly when one of the keywords occurs as a substring of its upper-cased form |
| NameFormatter.IsOrganizationIgnoresCase | utils/name_formatter.py:23-32 | classification gives the same answer for a name, its lower-cased form and its upper-cased form |
| NameFormatter.FormatPersonName | utils/name_formatter.py:35-66 | a blank name comes back unchanged; otherwise the words of the result are the formatted words of the input, and the result has no surrounding whitespace |
| NameFormatter.PersonNameShape | utils/name_formatter.py:48-66 | same number of tokens as the input; the first is upper-cased, the second capitalised, and every later one is its upper-cased initial followed by "."; tokens are joined by single spaces |
| NameFormatter.FormatPersonNameIdempotent | utils/name_formatter.py:48-66 | formatting an already formatted person name changes nothing |
| NameFormatter.FormatOrganizationName | utils/name_formatter.py:69-95 | a blank name comes back unchanged; otherwise whitespace runs collapse and the result's words are the input's words formatted one by one |
| NameFormatter.OrganizationNameShape | utils/name_formatter.py:82-95 | a word whose upper-case form is a keyword is written in capitals; every other word is capitalised; words are joined by single spaces |
| NameFormatter.FormatClientName | utils/name_formatter.py:98-111 | a blank name comes back unchanged; otherwise the stripped name takes the organisation path exactly when it is classified as an organisation, and the person path otherwise; either way the result is the formatted words joined by single spaces |
| NameFormatter.PersonOfWords | utils/name_formatter.py:48-66 | a non-blank person name formats to its formatted tokens joined by single spaces |
| NameFormatter.OrganizationOfWords | utils/name_formatter.py:82-95 | a non-blank organisation name formats to its formatted words joined by single spaces |
| NameExamples.LowerCaseExample | utils/name_formatter.py:42 | "rakoto jean paul" becomes "RAKOTO Jean P." |
| NameExamples.ThreeNamesExample | utils/name_formatter.py:41 | "Rabearisoa Marie Monique" becomes "RABEARISOA Marie M." |
| NameExamples.AlreadyFormattedExample | utils/name_formatter.py:43 | "ANDRIA Michel" is left as it is |
| NameExamples.KeywordKeptExample | utils/name_formatter.py:75 | "EPP Ambohipo" is left as it is |
| NameExamples.KeywordCapitalisedExample | utils/name_formatter.py:82-95 | "lycee technique" becomes "LYCEE Technique", because "LYCEE" is a keyword |
| LaserPrinter.CompanyOf | models/laser_printer.py:44-60 | the address is split into one piece per line, the pieces number one more than the newlines, and joining them with newlines gives the setting back |
| LaserPrinter.Render | models/laser_printer.py:43-45 | every rule line is exactly 48 copies of its character |
| LaserPrinter.HeaderShape | models/laser_printer.py:43-63 | the header is a rule, the centred company name, a rule, one centred line per address piece in order, and ends with a blank line and a "-" rule |
| LaserPrinter.ContactShape | models/laser_printer.py:51-60 | among the contact lines, each of Tel, NIF and STAT sits after the non-empty ones before it, carries its setting's value, and is present only when that setting is non-empty |
| LaserPrinter.HeaderContact | models/laser_printer.py:51-60 | the Tel, NIF and STAT lines follow the address pieces in that order; each appears in the header exactly when its setting is non-empty, and no other header line carries that field |
| LaserPrinter.HeaderLines | models/laser_printer.py:43-63 | the header has 5 lines, plus one per address piece, plus one for each of phone, NIF and STAT that is non-empty |
| LaserPrinter.ClientShape | models/laser_printer.py:66-85 | the client line comes first, with "Non specifie" when there is no name; the client "Tel:" line is present exactly when the phone is non-empty; then come a blank, the number, the date, a blank, a "=" rule, the list heading and a blank |
| LaserPrinter.FooterShape | models/laser_printer.py:105-120 | the footer has a "=" rule, the total heading and amount, the payment line ("Especes" by default), a "-" rule and the two thank-you lines, at fixed positions |
| LaserPrinter.LineCount | models/laser_printer.py:39-120 | there are 25 lines, plus one per address piece, plus one per optional company line, plus one for the client phone, plus three per item |
| LaserPrinter.ItemBlock | models/laser_printer.py:89-102 | item i (from 0) fills the three consecutive lines at the items start plus 3i: its numbered name (numbered i+1), its detail line and a blank |
| LaserPrinter.RulePositions | models/laser_printer.py:43-45 | the rule lines sit where the layout puts them: first and third lines, end of the header, before the list heading, after the items and before the thanks |
| LaserPrinter.DatePosition | models/laser_printer.py:73-79 | the date line is the fifth line before the first item |
| LaserPrinter.ItemNameShown | models/laser_printer.py:90-94 | a name of at most 44 characters is printed whole; a longer one becomes its first 41 characters and "..." |
| LaserPrinter.CentredHeading | models/laser_printer.py:84 | a fixed heading is padded to exactly 48 columns, with the text starting at column floor((48 - len)/2) and only spaces around it |
| LaserPrinter.CentredEntry | models/laser_printer.py:44-60 | a centred line follows `str.center(48)`: text of 48 or more characters is unchanged; shorter text is padded with spaces to 48 columns, floor(pad/2) of them on the left |
| LaserPrinter.StoredDatePrinted | models/laser_printer.py:73-79 | a date stored as YYYY-MM-DD prints as "Date: DD/MM/YYYY" |
| LaserPrinter.FormatReceiptText | models/laser_printer.py:37-122 | `_format_receipt_text`: the rendered layout lines joined with newlines; TextLines splits the text back into those lines |
| LaserPrinter.TextLines | models/laser_printer.py:122 | splitting the joined text at newlines gives back exactly the rendered lines, in order |
| ThermalPrinter.NewPrinter | models/thermal_printer.py:11-17 | construction fails exactly when `int()` rejects the paper width; the line width is 32 for 58 mm paper and 48 otherwise |
| ThermalPrinter.DefaultPaper | models/thermal_printer.py:14-17 | without a paper-width setting the printer is 58 mm with 32 columns |
| ThermalPrinter.FitShape | models/thermal_printer.py:34-45 | an operand is stripped; if it fits its share it is kept whole, otherwise it becomes its first share-3 characters and "..." |
| ThermalPrinter.SideBySideStrips | models/thermal_printer.py:34-35 | surrounding whitespace of either operand makes no difference to the row |
| ThermalPrinter.SpreadLayout | models/thermal_printer.py:47-52 | a row is the left text, at least one space, the right text and a newline |
| ThermalPrinter.SideBySide | models/thermal_printer.py:29-52 | the row length before the newline is max(width, len(left) + len(right) + 1) for the cut operands |
| ThermalPrinter.SideBySideFits | models/thermal_printer.py:29-52 | when the operands fit their shares and the line, the row is exactly the line width plus the newline |
| ThermalPrinter.SideBySideFull | models/thermal_printer.py:38-52 | when both operands fill their shares, the row is one character longer than the line |
| ThermalPrinter.PrintReceipt | models/thermal_printer.py:54-60 | without a device nothing is sent and failure is reported; with one, the receipt's command sequence is sent and the last command is the paper cut |
| ThermalPrinter.PrintSendsItems | models/thermal_printer.py:127-141 | a connected print sends item i (from 0) as its name numbered i+1 and then its detail line, in input order, among 21 fixed commands, the STAT row when set, one row per address piece and two per item |
| ThermalPrinter.ReceiptCommands | models/thermal_printer.py:62-166 | the commands `print_receipt` sends, in order; CommandCount, AddressRowsInOrder and ItemCommandsInOrder state their number and positions |
| ThermalPrinter.CommandCount | models/thermal_printer.py:62-166 | the command count is 21, plus the STAT row when STAT is set, plus one row per address piece, plus two per item |
| ThermalPrinter.AddressRowsInOrder | models/thermal_printer.py:86-89 | every piece of the address split at newlines, empty ones included, gets its own row with an empty left side, in order |
| ThermalPrinter.ItemCommandsInOrder | models/thermal_printer.py:127-141 | item i (from 0) is sent as its numbered name (numbered i+1) and then its detail line, in input order |
| ThermalPrinter.ItemNameShown | models/thermal_printer.py:125-134 | a name of at most 30 characters (58 mm) or 45 characters (otherwise) is printed whole; a longer one becomes max-3 characters and "..." |
| ThermalPrinter.PrintedTextAppend | models/thermal_printer.py:62-166 | the printed text of a command sequence is the concatenation of the texts of its parts |
| Database.InsertOrIgnoreUnion | models/database.py:78-81 | inserting the defaults with INSERT OR IGNORE gives the defaults overridden by the values already stored |
| Database.InitSettingsKeeps | models/database.py:62-81 | start-up keeps every stored value and adds exactly the missing defaults |
| Database.GetSetting | models/database.py:243-250 | `get_setting`: the stored value, or the default for a missing key; SetThenGet relates it to SetSetting |
| Database.SetSetting | models/database.py:252-260 | `set_setting` as INSERT OR REPLACE; SetThenGet states that the value reads back and nothing else changes |
| Database.SetThenGet | models/database.py:243-260 | a value set is the value read back; other keys and the other tables are unchanged |
| Database.ReceiptNumber | models/database.py:279 | a receipt number starts with "FACT-" and is at least 10 characters long |
| Database.ReceiptNumberShowsCounter | models/database.py:279 | reading the part after "FACT-" back with `int()` gives the counter |
| Database.NextReceiptNumber | models/database.py:276-279 | a number is produced exactly when the stored counter parses as an integer |
| Database.OpenCounterIsOne | models/database.py:72 | on a fresh store the counter reads 1 |
| Database.FirstNumber | models/database.py:72 | the first number a fresh store hands out is "FACT-00001" |
| Database.IncrementCounter | models/database.py:271-274 | the increment succeeds exactly when the counter parses |
| Database.IncrementAddsOne | models/database.py:271-274 | after an increment the counter reads one more |
| Database.IncrementKeepsRest | models/database.py:271-274 | an increment changes no other setting and no other table |
| Database.SaveReceipt | models/database.py:153-179 | a duplicate receipt number fails and changes nothing; otherwise the row goes in under the next id, and the counter step fails only when the counter does not parse, leaving the row saved |
| Database.SaveAdvancesCounter | models/database.py:175-179 | a successful save advances the counter by exactly one |
| Database.SaveKeepsValid | models/database.py:39-41 | saving preserves the store invariant: ids are positive and at most the last id, and receipt numbers are unique |
| Database.GetReceiptById | models/database.py:194-217 | an unknown id gives nothing; a known one gives the stored number and total and the items the stored JSON decodes to |
| Database.SavedInHistory | models/database.py:153-217 | after saving a receipt with a fresh number, it reads back under the next id and its number is taken |
| Database.SaveThenGet | models/database.py:153-217 | a saved receipt reads back under its new id with all its fields, absent optional fields filled with the defaults the insert used |
| Database.AddOrUpdateProduct | models/database.py:88-113 | the upserted name is in the product table with the price just entered, one more use and its sales raised by that price (a new name starts at one use); every other product and the other tables are unchanged |
| Database.StatisticsCountEntries | models/database.py:97-110 | after a run of upserts a product's count has grown by the number of its entries and its sales by the sum of their prices, so a new name starts at count 1 with sales equal to its price |
| ItemsJson.DecodeEncode | models/database.py:158 | decoding the JSON text written for an item list gives the list back |
| ItemsJson.ReadEscapeString | models/database.py:158 | every string escaped by the writer reads back as itself |
| ItemsJson.EscapeStringPrintable | models/database.py:158 | the escaped form of any string is printable ASCII |
| ItemsJson.WriteItemPrintable | models/database.py:158 | the JSON text of an item is printable ASCII |
| ReceiptController.AddItem | controllers/receipt_controller.py:14-33 | an item is accepted exactly when the name is non-empty and quantity and price are positive; a rejected item changes nothing; an accepted one is appended at the end as the item with the given name, quantity and unit price and total = quantity × price, and the product table gets the upsert |
| ReceiptController.AddItemTotal | controllers/receipt_controller.py:19-31 | adding raises the total by quantity × price, counts one more use of the product and keeps earlier items |
| ReceiptController.RemoveItem | controllers/receipt_controller.py:35-40 | removal succeeds exactly for an index in range; otherwise nothing changes; on success the removed item is the one at the index |
| ReceiptController.RemoveKeepsOrder | controllers/receipt_controller.py:37-39 | the remaining items keep their relative order |
| ReceiptController.RemoveIsPermutation | controllers/receipt_controller.py:37-39 | the remaining items plus the removed one are the original items as a multiset |
| ReceiptController.RemoveItemTotal | controllers/receipt_controller.py:46-48 | removal lowers the total by the removed item's total |
| ReceiptController.AddThenRemove | controllers/receipt_controller.py:28-38 | removing the item just added restores the item list |
| ReceiptController.CurrentTotal | controllers/receipt_controller.py:46-48 | `get_current_total`: the sum of the item totals; AddItemTotal, RemoveItemTotal and Clear state how each operation moves it |
| ReceiptController.Clear | controllers/receipt_controller.py:50-52 | clearing empties the list, brings the total to 0 and keeps the store |
| ReceiptController.BuildReceipt | controllers/receipt_controller.py:60-69 | the built receipt carries the current items and their total |
| ReceiptController.SaveAndGenerate | controllers/receipt_controller.py:54-96 | success is reported exactly when the receipt was saved and the PDF produced; the exception reaches the caller exactly when the counter does not parse; on success the items are cleared, otherwise they are kept; after a save the returned store is the one with the receipt saved, and without one the state is unchanged |
| ReceiptController.SaveAndPrint | controllers/receipt_controller.py:98-143 | the shared print path: success exactly when the save and the print both succeed; the exception reaches the caller exactly when the counter does not parse; after a save the items are cleared and the returned store is the one with the receipt saved, whatever the print did; without a save the state is unchanged |
| ReceiptController.PrintThermal | controllers/receipt_controller.py:98-143 | `print_thermal_receipt` is the shared print path with the thermal printer's outcome; ClearingRules, SavedReceiptKept and SuccessMeansSaved state its outcomes |
| ReceiptController.PrintLaser | controllers/receipt_controller.py:233-278 | `print_laser_receipt` is the shared print path with the laser printer's outcome; ClearingRules, SavedReceiptKept and SuccessMeansSaved state its outcomes |
| ReceiptController.SaveCurrent | controllers/receipt_controller.py:56-75 | nothing is saved exactly when the list is empty; the number cannot be produced exactly when the list is non-empty and the counter does not parse |
| ReceiptController.SavedParts | controllers/receipt_controller.py:60-75 | a successful save stores the receipt built with the next number, which was not taken |
| ReceiptController.EmptyRefused | controllers/receipt_controller.py:56-57 | each entry point refuses an empty list and changes nothing |
| ReceiptController.SaveFailsOnlyOnDuplicate | controllers/receipt_controller.py:72-75 | a save failure can only be a duplicate receipt number, and it leaves the store unchanged |
| ReceiptController.SavedAdvancesCounter | controllers/receipt_controller.py:72-75 | every successful save advances the counter by one |
| ReceiptController.SaveFailureKeepsItems | controllers/receipt_controller.py:72-75 | when the save fails the items are kept and none of the three finishing operations reports success |
| ReceiptController.SavedReceiptKept | controllers/receipt_controller.py:72-143 | once saved, the receipt stays in the history of the store each finishing operation returns (it reads back under the next id and its number is taken), whether or not the PDF or the print succeeded |
| ReceiptController.ClearingRules | controllers/receipt_controller.py:78-143 | after a successful save, the PDF path clears the items and succeeds exactly when generation succeeds; the thermal and laser paths clear the items whether or not printing succeeds, and succeed exactly when it does |
| ReceiptController.SuccessMeansSaved | controllers/receipt_controller.py:72-143 | a reported success of any of the three finishing operations (the laser one at lines 233-278) means the receipt is in the history of the returned store and the items are cleared |
| Text.Strip | models/thermal_printer.py:34-35 | stripping gives the empty string exactly for all-whitespace input |
| Text.StripIdempotent | models/thermal_printer.py:34-35 | stripping twice is stripping once |
| Text.WordsOfJoin | utils/name_formatter.py:82 | splitting a single-space join of words gives the words back |
| Text.SplitOn | models/laser_printer.py:47-49 | `split` gives one more piece than there are separators; no piece contains the separator; joining the pieces with it gives the text back |
| Text.SplitOnJoin | models/laser_printer.py:122 | splitting a join of separator-free pieces at the separator gives the pieces back |
| Text.ContainsIff | utils/name_formatter.py:28-30 | substring search succeeds exactly when the needle occurs at some position |
| Text.Truncate | models/laser_printer.py:91-92 | the result is at most the limit long; a text that fits is unchanged and a longer one is cut to exactly the limit |
| Text.TruncateShape | models/laser_printer.py:91-92 | a text that is too long keeps its first limit-3 characters and ends in "..." |
| Text.Center | models/laser_printer.py:44 | `str.center`: text at least as wide as the field is unchanged; shorter text sits inside exactly the field width with only spaces around it, and for an even width the left padding is half the padding, rounded down |
| Numerals.ParseIntToString | models/database.py:273-274 | `int(str(n)) == n`, so the counter written back by the increment reads back as written |
| Numerals.ParseZeroPad5 | models/database.py:279 | a zero-padded number reads back with `int()` as the number |
| Numerals.GroupedValue | models/thermal_printer.py:141 | removing the thousands separators from a grouped amount leaves its decimal digits |
| Dates.ParseIsoFormat | models/laser_printer.py:73-75 | a date written as YYYY-MM-DD parses back to the same date |
| Dates.PrintedDate | models/laser_printer.py:73-77 | text that does not parse as a date is printed unchanged; any text that parses, unpadded fields included, prints as DD/MM/YYYY whose digit fields read as the parsed day, month and year |
| Dates.DayMonthYearShows | models/laser_printer.py:75 | `strftime("%d/%m/%Y")` of a valid date is ten characters whose digit fields read as its day, month and year |
| Receipts.ItemsTotalConcat | controllers/receipt_controller.py:46-48 | the total of two runs of items is the sum of their totals |

## Left out

- Quantities, prices and totals are Python floats; the model uses integers. `f"{x:,.0f}"` is modelled as grouping the digits of a whole number, and `f"{q:.0f}"` as `str`.
- Case mapping covers ASCII and the Latin-1 capitals and small letters only. `ß`, `ÿ`, `µ` and all other characters are left unchanged, unlike Python's full Unicode `upper`/`capitalize`.
- `int()` is modelled for ASCII digits with an optional sign and surrounding whitespace. Underscores and non-ASCII digits are not modelled.
- `datetime.strptime` is modelled for the `%Y-%m-%d` format only, with ASCII digits. `datetime.now()` becomes a `today` text parameter of the controller.
- ItemsJson.Decode: reads only the shape the writer produces, an array of objects with the four keys in order, rather than all of JSON.
- Printability is proved per string and per item object, not for the whole array text.
- The USB ESC/POS device, `lp`/`lpstat`, temporary files and the PDF generator are left out. Their outcomes are the `connected`, `printOk` and `pdfOk` parameters. Styling commands (`set`) are not modelled.
- The thermal printer's catch-all exception path is left out, and so are the laser printer's `print_receipt` error messages. Both are folded into `printOk`.
- Exception messages and the controller's returned message strings are not modelled. Results are success or failure values.
- A dictionary key holding `None` is not told apart from an absent key: both are `None` in the model.
- SQLite AUTOINCREMENT is modelled as "last id + 1". Timestamps (`created_at`, `last_used`) are not modelled.
- The race between reading and incrementing the receipt counter is not modelled, because the model has no concurrency.
- Search, deletion, listing, statistics queries, top products, and the regenerate and reprint operations of the controller and the store are not modelled. So are the views and `main.py`.
- The user interface passes a `client_contact` argument that the controller methods do not accept. Only the controller's own signatures are modelled.
- The documentation example "lycee technique" → "Lycée Technique" does not match the code: "LYCEE" is a keyword and stays in capitals. NameExamples.KeywordCapitalisedExample proves what the code does.
- LaserPrinter.TextLines: requires that no rendered line contains a newline. A company name or client field with a newline would add lines to the printed text.
- ThermalPrinter.SideBySide: requires a line width of at least 6. The real widths are 32 and 48. Smaller widths would make the share minus three negative, and Python's negative slicing is not modelled.
- The thermal device's text is modelled as a sequence of commands and their rendered text. Bold, alignment and double size are not modelled.
- The code comment "only if printing succeeded" in the print paths does not describe the code, which clears the items in both cases. The model follows the code (ReceiptController.ClearingRules).

=== FILE: database.dfy ===
/**
 The application's SQLite store as a value. The settings, receipts and
 products tables are maps, and each operation returns the new store.

 The settings table holds text. The receipt counter is the text of the next
 receipt's sequence number, read with `int()`. A receipt row keeps its items
 as the JSON text written by `ItemsJson`. A product row counts how often the
 name was entered and the sum of the prices it was entered with.
 */
module Database {
  import opened Wrappers
  import Numerals
  import opened Receipts
  import ItemsJson
  import Text

  /** A products row (its `last_used` and `created_at` timestamps are not modelled). */
  datatype Product = Product(unitPrice: int, count: int, totalSold: int)

  /** A receipts row; `items` is the JSON text of the item list. */
  datatype Row = Row(
    receiptNumber: string,
    date: string,
    clientName: string,
    clientPhone: string,
    items: string,
    total: int,
    paymentMethod: string,
    notes: string)

  /** The three tables. `lastId` is the receipts table's AUTOINCREMENT
      sequence: the largest id handed out so far (0 before the first). */
  datatype Db = Db(
    settings: Settings,
    receipts: map<int, Row>,
    lastId: int,
    products: map<string, Product>)

  /** What the schema and AUTOINCREMENT keep true: every row id was handed out
      by the sequence, and no two rows share a receipt number. */
  predicate Valid(db: Db) {
    && db.lastId >= 0
    && (forall id :: id in db.receipts ==> 1 <= id <= db.lastId)
    && (forall i, j ::
          i in db.receipts && j in db.receipts && db.receipts[i].receiptNumber == db.receipts[j].receiptNumber
          ==> i == j)
  }

  // ---------------------------------------------------------------------
  // Settings
  // ---------------------------------------------------------------------

  const CounterKey := "receipt_counter"

  /** The default settings, in the order they are inserted. */
  const DefaultSettings: seq<(string, string)> := [
    ("company_name", "COMPTOIR FIDAHOUSSEN"),
    ("company_address", "85 RUE DE LIEGE TSARALALANA\nANTANANARIVO 101"),
    ("company_phone", "020 76 231 43"),
    ("company_email", "cf@moov.mg"),
    ("company_nif", "2000022547"),
    ("company_stat", "46101 11 1984 0 00029"),
    ("company_rc", "2003A00087"),
    ("company_ce", "520/FOK/FIATA"),
    ("company_cif", "0189577 DGI-M du 03/06/2025"),
    (CounterKey, "1"),
    ("currency", "Ar"),
    ("paper_width", "58"),
    ("receipt_type", "Grossiste - D\U{E9}taillants/ Vente \U{E0} l'utilisateur")
  ]

  /** `INSERT OR IGNORE` of the pairs from index `k` on, one after the other. */
  function InsertOrIgnore(settings: Settings, pairs: seq<(string, string)>, k: nat): Settings
    requires k <= |pairs|
    decreases |pairs| - k
  {
    if k == |pairs| then settings
    else
      var (key, value) := pairs[k];
      InsertOrIgnore(if key in settings then settings else settings[key := value], pairs, k + 1)
  }

  /** The pairs from index `k` on as a map, an earlier pair winning over a later one. */
  function PairsMap(pairs: seq<(string, string)>, k: nat): map<string, string>
    requires k <= |pairs|
    decreases |pairs| - k
  {
    if k == |pairs| then map[] else PairsMap(pairs, k + 1)[pairs[k].0 := pairs[k].1]
  }

  /** Inserting with `INSERT OR IGNORE` is a map union in which the rows
      already present win. */
  lemma {:induction false} InsertOrIgnoreUnion(settings: Settings, pairs: seq<(string, string)>, k: nat)
    requires k <= |pairs|
    ensures InsertOrIgnore(settings, pairs, k) == PairsMap(pairs, k) + settings
    decreases |pairs| - k
  {
    if k < |pairs| {
      var (key, value) := pairs[k];
      var next := if key in settings then settings else settings[key := value];
      InsertOrIgnoreUnion(next, pairs, k + 1);
      var rest := PairsMap(pairs, k + 1);
      assert rest + next == rest[key := value] + settings;
    }
  }

  /** The settings table after the start-up initialisation. */
  function InitSettings(existing: Settings): Settings {
    InsertOrIgnore(existing, DefaultSettings, 0)
  }

  /** Start-up keeps every stored value and supplies each missing default. */
  lemma InitSettingsKeeps(existing: Settings)
    ensures forall key :: key in existing ==> key in InitSettings(existing) && InitSettings(existing)[key] == existing[key]
    ensures forall key :: key in InitSettings(existing) <==> key in existing || key in PairsMap(DefaultSettings, 0)
    ensures forall key :: key !in existing && key in PairsMap(DefaultSettings, 0) ==>
      InitSettings(existing)[key] == PairsMap(DefaultSettings, 0)[key]
  {
    InsertOrIgnoreUnion(existing, DefaultSettings, 0);
  }

  /** A store opened over an existing settings table and empty other tables. */
  function Open(existing: Settings): Db {
    Db(InitSettings(existing), map[], 0, map[])
  }

  /** `get_setting(key, default)`. */
  function GetSetting(db: Db, key: string, default: string): string {
    Setting(db.settings, key, default)
  }

  /** `set_setting(key, value)` with the value already turned to text. */
  function SetSetting(db: Db, key: string, value: string): Db {
    db.(settings := db.settings[key := value])
  }

  /** A value set is the value read back; every other key and table is unchanged. */
  lemma SetThenGet(db: Db, key: string, value: string, other: string, default: string)
    ensures GetSetting(SetSetting(db, key, value), key, default) == value
    ensures other != key ==> GetSetting(SetSetting(db, key, value), other, default) == GetSetting(db, other, default)
    ensures SetSetting(db, key, value).receipts == db.receipts
    ensures SetSetting(db, key, value).products == db.products
    ensures SetSetting(db, key, value).lastId == db.lastId
  {
  }

  // ---------------------------------------------------------------------
  // Receipt numbering
  // ---------------------------------------------------------------------

  /** `int(get_setting('receipt_counter', '1'))`, `None` where `int` raises. */
  function Counter(db: Db): Option<int> {
    Numerals.ParseInt(GetSetting(db, CounterKey, "1"))
  }

  /** `f"FACT-{counter:05d}"`. */
  function ReceiptNumber(counter: int): (r: string)
    ensures |r| >= 10 && r[..5] == "FACT-"
  {
    "FACT-" + Numerals.ZeroPad5(counter)
  }

  /** Distinct counters give distinct numbers: the counter reads back from the number. */
  lemma ReceiptNumberShowsCounter(counter: int)
    ensures Numerals.ParseInt(ReceiptNumber(counter)[5..]) == Some(counter)
  {
    assert ReceiptNumber(counter)[5..] == Numerals.ZeroPad5(counter);
    Numerals.ParseZeroPad5(counter);
  }

  /** `get_next_receipt_number`; `None` where `int` raises. */
  function NextReceiptNumber(db: Db): (r: Option<string>)
    ensures r.Some? <==> Counter(db).Some?
  {
    var counter :- Counter(db);
    Some(ReceiptNumber(counter))
  }

  /** `increment_receipt_counter`: `None` where `int` raises. */
  function IncrementCounter(db: Db): (r: Option<Db>)
    ensures r.Some? <==> Counter(db).Some?
  {
    var current :- Counter(db);
    Some(SetSetting(db, CounterKey, Numerals.IntToString(current + 1)))
  }

  /** Incrementing adds one to the counter. */
  lemma IncrementAddsOne(db: Db)
    requires Counter(db).Some?
    ensures Counter(IncrementCounter(db).value) == Some(Counter(db).value + 1)
  {
    var c := Counter(db).value;
    var t := Numerals.IntToString(c + 1);
    var after := SetSetting(db, CounterKey, t);
    IncrementSets(db, c);
    assert IncrementCounter(db).value == after;
    CounterAfterSet(db, t);
    Numerals.ParseIntToString(c + 1);
    assert Counter(after) == Some(c + 1);
  }

  lemma IncrementSets(db: Db, c: int)
    requires Counter(db) == Some(c)
    ensures IncrementCounter(db) == Some(SetSetting(db, CounterKey, Numerals.IntToString(c + 1)))
  {
  }

  lemma CounterAfterSet(db: Db, t: string)
    ensures Counter(SetSetting(db, CounterKey, t)) == Numerals.ParseInt(t)
  {
    CounterOfText(SetSetting(db, CounterKey, t), t);
  }

  /** Incrementing changes no other setting and no other table. */
  lemma IncrementKeepsRest(db: Db)
    requires Counter(db).Some?
    ensures forall key :: key != CounterKey ==>
      (key in IncrementCounter(db).value.settings <==> key in db.settings)
      && (key in db.settings ==> IncrementCounter(db).value.settings[key] == db.settings[key])
    ensures IncrementCounter(db).value.receipts == db.receipts
    ensures IncrementCounter(db).value.products == db.products
  {
  }

  lemma CounterOfText(db: Db, text: string)
    requires CounterKey in db.settings && db.settings[CounterKey] == text
    ensures Counter(db) == Numerals.ParseInt(text)
  {
  }

  /** A counter that is missing reads as 1. */
  lemma MissingCounterIsOne(db: Db)
    requires CounterKey !in db.settings
    ensures Counter(db) == Some(1)
  {
    assert GetSetting(db, CounterKey, "1") == "1";
    OneParses();
  }

  lemma OneParses()
    ensures Numerals.ParseInt("1") == Some(1)
  {
    assert Numerals.IsDigit('1');
    Numerals.ParseDigits("1");
  }

  /** The default settings start the counter at 1. */
  lemma OpenCounterIsOne(existing: Settings)
    requires CounterKey !in existing
    ensures Counter(Open(existing)) == Some(1)
  {
    InitSettingsKeeps(existing);
    DefaultCounter();
    CounterOfText(Open(existing), "1");
    OneParses();
  }

  lemma DefaultCounter()
    ensures CounterKey in PairsMap(DefaultSettings, 0) && PairsMap(DefaultSettings, 0)[CounterKey] == "1"
  {
    var m := PairsMap(DefaultSettings, 10);
    assert PairsMap(DefaultSettings, 9) == m[CounterKey := "1"];
    var k := 8;
    while k >= 0
      invariant -1 <= k <= 8
      invariant CounterKey in PairsMap(DefaultSettings, k + 1) && PairsMap(DefaultSettings, k + 1)[CounterKey] == "1"
      decreases k
    {
      assert DefaultSettings[k].0 != CounterKey;
      k := k - 1;
    }
  }

  /** The first receipt number of a fresh store. */
  lemma FirstNumber(existing: Settings)
    requires CounterKey !in existing
    ensures NextReceiptNumber(Open(existing)) == Some("FACT-00001")
  {
    OpenCounterIsOne(existing);
    NumberOne(Open(existing));
  }

  lemma NumberOne(db: Db)
    requires Counter(db) == Some(1)
    ensures NextReceiptNumber(db) == Some("FACT-00001")
  {
    FirstPadded();
  }

  lemma FirstPadded()
    ensures ReceiptNumber(1) == "FACT-00001"
  {
    assert Numerals.Decimal(1) == "1";
    var z := Text.Repeat('0', 4);
    assert z == "0000";
    assert Numerals.PadZeros("1", 5) == z + "1";
  }

  // ---------------------------------------------------------------------
  // Receipts
  // ---------------------------------------------------------------------

  /** The row `save_receipt` inserts: absent optional keys take their defaults
      and the items are written as JSON. */
  function RowOf(r: ReceiptData): Row {
    Row(r.receiptNumber, r.date, r.clientName.GetOr(""), r.clientPhone.GetOr(""),
        ItemsJson.Encode(r.items), r.total, r.paymentMethod.GetOr("Esp\U{E8}ces"), r.notes.GetOr(""))
  }

  predicate NumberTaken(db: Db, number: string) {
    exists id :: id in db.receipts && db.receipts[id].receiptNumber == number
  }

  datatype SaveError = DuplicateNumber | UnreadableCounter

  /** The store after `save_receipt`, and the exception it raised, if any. */
  datatype Saved = Saved(db: Db, error: Option<SaveError>)

  /** The store with the row inserted under the next id. */
  function Insert(db: Db, r: ReceiptData): Db {
    db.(receipts := db.receipts[db.lastId + 1 := RowOf(r)], lastId := db.lastId + 1)
  }

  /** `save_receipt`. The insert fails on a receipt number already stored; it is
      committed before the counter is incremented, so an unreadable counter
      leaves the row stored and the counter as it was. */
  function SaveReceipt(db: Db, r: ReceiptData): (s: Saved)
    ensures NumberTaken(db, r.receiptNumber) ==> s == Saved(db, Some(DuplicateNumber))
    ensures !NumberTaken(db, r.receiptNumber) ==>
      && s.db.receipts == db.receipts[db.lastId + 1 := RowOf(r)]
      && s.db.lastId == db.lastId + 1
      && s.db.products == db.products
      && (s.error.None? <==> Counter(db).Some?)
      && (s.error.Some? ==> s == Saved(Insert(db, r), Some(UnreadableCounter)))
  {
    if NumberTaken(db, r.receiptNumber) then Saved(db, Some(DuplicateNumber))
    else
      var inserted := Insert(db, r);
      assert Counter(inserted) == Counter(db);
      match IncrementCounter(inserted)
      case Some(next) => Saved(next, None)
      case None => Saved(inserted, Some(UnreadableCounter))
  }

  /** A successful save advances the counter by exactly one, so the next
      receipt gets the next number. */
  lemma SaveAdvancesCounter(db: Db, r: ReceiptData)
    requires !NumberTaken(db, r.receiptNumber) && Counter(db).Some?
    ensures Counter(SaveReceipt(db, r).db) == Some(Counter(db).value + 1)
  {
    var inserted := Insert(db, r);
    InsertKeepsCounter(db, r);
    IncrementAddsOne(inserted);
    SavedIsIncremented(db, r);
  }

  lemma InsertKeepsCounter(db: Db, r: ReceiptData)
    ensures Counter(Insert(db, r)) == Counter(db)
  {
    assert Insert(db, r).settings == db.settings;
  }

  lemma SavedIsIncremented(db: Db, r: ReceiptData)
    requires !NumberTaken(db, r.receiptNumber) && Counter(db).Some?
    ensures IncrementCounter(Insert(db, r)).Some?
    ensures SaveReceipt(db, r).db == IncrementCounter(Insert(db, r)).value
  {
    InsertKeepsCounter(db, r);
  }

  /** Saving keeps the store valid: the new row takes an id no row has, and
      its number is not stored yet. */
  lemma SaveKeepsValid(db: Db, r: ReceiptData)
    requires Valid(db)
    ensures Valid(SaveReceipt(db, r).db)
    ensures !NumberTaken(db, r.receiptNumber) ==> db.lastId + 1 !in db.receipts
  {
    if !NumberTaken(db, r.receiptNumber) {
      var after := SaveReceipt(db, r).db;
      InsertKeepsValid(db, r);
      assert after.receipts == Insert(db, r).receipts && after.lastId == Insert(db, r).lastId;
    }
  }

  lemma InsertKeepsValid(db: Db, r: ReceiptData)
    requires Valid(db) && !NumberTaken(db, r.receiptNumber)
    ensures Valid(Insert(db, r))
  {
    var id := db.lastId + 1;
    var rows := Insert(db, r).receipts;
    forall j | j in db.receipts
      ensures db.receipts[j].receiptNumber != r.receiptNumber
    {
    }
    forall i, j | i in rows && j in rows && rows[i].receiptNumber == rows[j].receiptNumber
      ensures i == j
    {
      if i != id && j != id {
        assert rows[i] == db.receipts[i] && rows[j] == db.receipts[j];
      }
    }
  }

  /** What `get_receipt_by_id` returns: no row, the row with its items read
      back, or an exception from `json.loads`. */
  datatype Fetched = NotFound | Found(receipt: ReceiptData) | UnreadableItems

  /** `get_receipt_by_id`: every column comes back, so the optional keys are all present. */
  function GetReceiptById(db: Db, id: int): (f: Fetched)
    ensures f.NotFound? <==> id !in db.receipts
    ensures f.Found? ==>
      && f.receipt.receiptNumber == db.receipts[id].receiptNumber
      && f.receipt.total == db.receipts[id].total
      && ItemsJson.Decode(db.receipts[id].items) == Some(f.receipt.items)
  {
    if id !in db.receipts then NotFound
    else
      var row := db.receipts[id];
      match ItemsJson.Decode(row.items)
      case None => UnreadableItems
      case Some(items) =>
        Found(ReceiptData(row.receiptNumber, row.date, Some(row.clientName), Some(row.clientPhone),
          items, row.total, Some(row.paymentMethod), Some(row.notes)))
  }

  /** The receipt as it reads back after saving: what was given, with each
      absent optional key replaced by the default the insert used. */
  function Stored(r: ReceiptData): ReceiptData {
    r.(clientName := Some(r.clientName.GetOr("")),
       clientPhone := Some(r.clientPhone.GetOr("")),
       paymentMethod := Some(r.paymentMethod.GetOr("Esp\U{E8}ces")),
       notes := Some(r.notes.GetOr("")))
  }

  /** A saved receipt is read back under the id the insert gave it, items and all. */
  lemma SaveThenGet(db: Db, r: ReceiptData)
    requires !NumberTaken(db, r.receiptNumber)
    ensures GetReceiptById(SaveReceipt(db, r).db, db.lastId + 1) == Found(Stored(r))
  {
    var after := SaveReceipt(db, r).db;
    assert db.lastId + 1 in after.receipts && after.receipts[db.lastId + 1] == RowOf(r) by {
      if Counter(db).None? {
        assert after == Insert(db, r);
      } else {
        assert after.receipts == db.receipts[db.lastId + 1 := RowOf(r)];
      }
    }
    ItemsJson.DecodeEncode(r.items);
    ReadRow(after, db.lastId + 1, r);
  }

  /** `rc` is in the history of `after`: it reads back under the id that
      follows `before`'s last one, and its number is taken. */
  predicate InHistory(after: Db, before: Db, rc: ReceiptData) {
    && GetReceiptById(after, before.lastId + 1) == Found(Stored(rc))
    && NumberTaken(after, rc.receiptNumber)
  }

  /** A receipt with a fresh number is in the history after it is saved. */
  lemma SavedInHistory(db: Db, r: ReceiptData)
    requires !NumberTaken(db, r.receiptNumber)
    ensures InHistory(SaveReceipt(db, r).db, db, r)
  {
    var after := SaveReceipt(db, r).db;
    SaveThenGet(db, r);
    assert db.lastId + 1 in after.receipts && after.receipts[db.lastId + 1].receiptNumber == r.receiptNumber;
  }

  lemma ReadRow(db: Db, id: int, r: ReceiptData)
    requires id in db.receipts && db.receipts[id] == RowOf(r)
    requires ItemsJson.Decode(RowOf(r).items) == Some(r.items)
    ensures GetReceiptById(db, id) == Found(Stored(r))
  {
  }

  // ---------------------------------------------------------------------
  // Products
  // ---------------------------------------------------------------------

  /** `add_or_update_product`: a known name gets the new price, one more use and
      the price added to its sales; a new name starts at one use. */
  function AddOrUpdateProduct(db: Db, name: string, unitPrice: int): (r: Db)
    ensures r.products.Keys == db.products.Keys + {name}
    ensures r.products[name].unitPrice == unitPrice
    ensures Uses(r, name) == Uses(db, name) + 1 && Sold(r, name) == Sold(db, name) + unitPrice
    ensures forall other :: other in db.products && other != name ==> r.products[other] == db.products[other]
    ensures r.settings == db.settings && r.receipts == db.receipts && r.lastId == db.lastId
  {
    var updated :=
      if name in db.products then
        var p := db.products[name];
        Product(unitPrice, p.count + 1, p.totalSold + unitPrice)
      else Product(unitPrice, 1, unitPrice);
    db.(products := db.products[name := updated])
  }

  /** How often a name was entered, 0 for a name never seen. */
  function Uses(db: Db, name: string): int {
    if name in db.products then db.products[name].count else 0
  }

  /** The sales recorded for a name, 0 for a name never seen. */
  function Sold(db: Db, name: string): int {
    if name in db.products then db.products[name].totalSold else 0
  }

  /** The store after entering each (name, price) pair in turn. */
  function AddAll(db: Db, entries: seq<(string, int)>): Db
    decreases |entries|
  {
    if entries == [] then db
    else AddAll(AddOrUpdateProduct(db, entries[0].0, entries[0].1), entries[1..])
  }

  /** How many of the entries are for `name`. */
  function Occurrences(entries: seq<(string, int)>, name: string): nat {
    if entries == [] then 0
    else (if entries[0].0 == name then 1 else 0) + Occurrences(entries[1..], name)
  }

  /** The sum of the prices entered for `name`. */
  function PriceSum(entries: seq<(string, int)>, name: string): int {
    if entries == [] then 0
    else (if entries[0].0 == name then entries[0].1 else 0) + PriceSum(entries[1..], name)
  }

  /** The product statistics count the entries: the use count grows by the
      number of entries for the name and the sales by the sum of their prices. */
  lemma {:induction false} StatisticsCountEntries(db: Db, entries: seq<(string, int)>, name: string)
    ensures Uses(AddAll(db, entries), name) == Uses(db, name) + Occurrences(entries, name)
    ensures Sold(AddAll(db, entries), name) == Sold(db, name) + PriceSum(entries, name)
    decreases |entries|
  {
    if entries != [] {
      var next := AddOrUpdateProduct(db, entries[0].0, entries[0].1);
      StatisticsCountEntries(next, entries[1..], name);
      if entries[0].0 != name {
        assert Uses(next, name) == Uses(db, name);
        assert Sold(next, name) == Sold(db, name);
      }
    }
  }
}

=== FILE: dates.dfy ===
/**
 The receipt date handling: dates are stored as `%Y-%m-%d` text and printed
 as `%d/%m/%Y`; text that `datetime.strptime(s, "%Y-%m-%d")` rejects is
 printed unchanged.

 `ParseDate` follows CPython's `_strptime`: the format becomes the regular
 expression `(\d\d\d\d)-(1[0-2]|0[1-9]|[1-9])-(3[01]|[12]\d|0[1-9]|[1-9]| [1-9])`,
 which is matched (not full-matched) at the start of the text; leftover text
 is an error, and so is a day the month does not have or the year 0.
 */
module Dates {
  import opened Wrappers
  import Numerals

  datatype Date = Date(year: int, month: int, day: int)

  predicate IsLeap(y: int) {
    (y % 4 == 0 && y % 100 != 0) || y % 400 == 0
  }

  function DaysInMonth(y: int, m: int): int
    requires 1 <= m <= 12
  {
    if m == 2 then (if IsLeap(y) then 29 else 28)
    else if m == 4 || m == 6 || m == 9 || m == 11 then 30
    else 31
  }

  /** What `datetime(year, month, day)` accepts. */
  predicate ValidDate(d: Date) {
    && 1 <= d.year <= 9999
    && 1 <= d.month <= 12
    && 1 <= d.day <= DaysInMonth(d.year, d.month)
  }

  function Dv(c: char): nat
    requires Numerals.IsDigit(c)
  {
    Numerals.DigitValue(c)
  }

  /** A match of one regular-expression field: its value and how many characters it took. */
  datatype Field = Field(value: int, len: nat)

  /** The alternatives of the month group `1[0-2]|0[1-9]|[1-9]` that match at the
      start of `t`, in the order the regular expression tries them. */
  function MonthCandidates(t: string): seq<Field> {
    (if |t| >= 2 && t[0] == '1' && '0' <= t[1] <= '2' then [Field(10 + Dv(t[1]), 2)] else [])
    + (if |t| >= 2 && t[0] == '0' && '1' <= t[1] <= '9' then [Field(Dv(t[1]), 2)] else [])
    + (if |t| >= 1 && '1' <= t[0] <= '9' then [Field(Dv(t[0]), 1)] else [])
  }

  /** The first alternative of the day group `3[01]|[12]\d|0[1-9]|[1-9]| [1-9]`
      that matches at the start of `t`. */
  function DayField(t: string): Option<Field> {
    if |t| >= 2 && t[0] == '3' && (t[1] == '0' || t[1] == '1') then Some(Field(30 + Dv(t[1]), 2))
    else if |t| >= 2 && (t[0] == '1' || t[0] == '2') && Numerals.IsDigit(t[1]) then Some(Field(10 * Dv(t[0]) + Dv(t[1]), 2))
    else if |t| >= 2 && t[0] == '0' && '1' <= t[1] <= '9' then Some(Field(Dv(t[1]), 2))
    else if |t| >= 1 && '1' <= t[0] <= '9' then Some(Field(Dv(t[0]), 1))
    else if |t| >= 2 && t[0] == ' ' && '1' <= t[1] <= '9' then Some(Field(Dv(t[1]), 2))
    else None
  }

  /** The regular expression's backtracking over the month alternatives: the
      first one that is followed by '-' and a day. Returns month, day and the
      number of characters the match consumed. */
  function MatchMonthDay(cands: seq<Field>, t: string): Option<(Field, Field)> {
    if cands == [] then None
    else
      var m := cands[0];
      if m.len < |t| && t[m.len] == '-' && DayField(t[m.len + 1..]).Some? then
        Some((m, DayField(t[m.len + 1..]).value))
      else MatchMonthDay(cands[1..], t)
  }

  /** `datetime.strptime(s, "%Y-%m-%d")`, `None` where it raises `ValueError`. */
  function ParseDate(s: string): (r: Option<Date>)
    ensures r.Some? ==> ValidDate(r.value)
  {
    if |s| < 5 || !Numerals.AllDigits(s[..4]) || s[4] != '-' then None
    else
      var y := 1000 * Dv(s[0]) + 100 * Dv(s[1]) + 10 * Dv(s[2]) + Dv(s[3]);
      var t := s[5..];
      match MatchMonthDay(MonthCandidates(t), t)
      case None => None
      case Some((m, d)) =>
        if m.len + 1 + d.len != |t| then None
        else
          var date := Date(y, m.value, d.value);
          if ValidDate(date) then Some(date) else None
  }

  function Pad2(n: nat): (r: string)
    requires n < 100
    ensures |r| == 2 && Numerals.AllDigits(r)
  {
    [Numerals.DigitChar(n / 10), Numerals.DigitChar(n % 10)]
  }

  function Pad4(n: nat): (r: string)
    requires n < 10000
    ensures |r| == 4 && Numerals.AllDigits(r)
  {
    var q1 := n / 10;
    var q2 := q1 / 10;
    [Numerals.DigitChar(q2 / 10), Numerals.DigitChar(q2 % 10),
     Numerals.DigitChar(q1 % 10), Numerals.DigitChar(n % 10)]
  }

  /** `date.strftime("%Y-%m-%d")`, the form the application stores. */
  function IsoFormat(d: Date): string
    requires ValidDate(d)
  {
    Pad4(d.year) + "-" + Pad2(d.month) + "-" + Pad2(d.day)
  }

  /** `date.strftime("%d/%m/%Y")`, the printed form. */
  function DayMonthYear(d: Date): string
    requires ValidDate(d)
  {
    Pad2(d.day) + "/" + Pad2(d.month) + "/" + Pad4(d.year)
  }

  /** `r` reads as `dd/mm/yyyy` with the three digit fields giving `d`'s day,
      month and year. */
  predicate ShowsDate(r: string, d: Date) {
    && |r| == 10 && r[2] == '/' && r[5] == '/'
    && Numerals.AllDigits(r[..2]) && Numerals.AllDigits(r[3..5]) && Numerals.AllDigits(r[6..])
    && Numerals.DigitsValue(r[..2]) == d.day
    && Numerals.DigitsValue(r[3..5]) == d.month
    && Numerals.DigitsValue(r[6..]) == d.year
  }

  /** The date as the receipt prints it: reformatted when it parses, otherwise the raw text. */
  function PrintedDate(s: string): (r: string)
    ensures ParseDate(s).None? ==> r == s
    ensures ParseDate(s).Some? ==> ShowsDate(r, ParseDate(s).value)
  {
    match ParseDate(s)
    case Some(d) =>
      DayMonthYearShows(d);
      DayMonthYear(d)
    case None => s
  }

  lemma Pad2Digits(n: nat)
    requires n < 100
    ensures Numerals.DigitsValue(Pad2(n)) == n
  {
    var p := Pad2(n);
    Pad2Value(n);
    OneDigit(p[..1]);
    assert p[..1][0] == p[0];
    assert Numerals.DigitsValue(p) == Numerals.DigitsValue(p[..1]) * 10 + Dv(p[1]);
  }

  lemma Pad4Digits(n: nat)
    requires n < 10000
    ensures Numerals.DigitsValue(Pad4(n)) == n
  {
    var p := Pad4(n);
    Pad4Value(n);
    OneDigit(p[..1]);
    assert p[..1][0] == p[0];
    assert p[..2][..1] == p[..1] && p[..3][..2] == p[..2] && p[..3][2] == p[2] && p[..2][1] == p[1];
    assert Numerals.DigitsValue(p[..2]) == Numerals.DigitsValue(p[..1]) * 10 + Dv(p[1]);
    assert Numerals.DigitsValue(p[..3]) == Numerals.DigitsValue(p[..2]) * 10 + Dv(p[2]);
    assert p[..3] == p[..|p| - 1];
    assert Numerals.DigitsValue(p) == Numerals.DigitsValue(p[..3]) * 10 + Dv(p[3]);
  }

  lemma OneDigit(s: string)
    requires |s| == 1 && Numerals.AllDigits(s)
    ensures Numerals.DigitsValue(s) == Dv(s[0])
  {
    assert s[..0] == [];
  }

  /** The printed form of a valid date shows its day, month and year. */
  lemma DayMonthYearShows(d: Date)
    requires ValidDate(d)
    ensures ShowsDate(DayMonthYear(d), d)
  {
    var r := DayMonthYear(d);
    var dd, mm, yyyy := Pad2(d.day), Pad2(d.month), Pad4(d.year);
    assert r == dd + "/" + mm + "/" + yyyy;
    assert r[..2] == dd && r[3..5] == mm && r[6..] == yyyy;
    Pad2Digits(d.day);
    Pad2Digits(d.month);
    Pad4Digits(d.year);
  }

  lemma Pad2Value(n: nat)
    requires n < 100
    ensures Dv(Pad2(n)[0]) == n / 10 && Dv(Pad2(n)[1]) == n % 10
  {
  }

  lemma {:induction false} IsoMonthDay(d: Date)
    requires ValidDate(d)
    ensures var t := Pad2(d.month) + "-" + Pad2(d.day);
      MatchMonthDay(MonthCandidates(t), t) == Some((Field(d.month, 2), Field(d.day, 2)))
  {
    var mm, dd := Pad2(d.month), Pad2(d.day);
    var t := mm + "-" + dd;
    Pad2Value(d.month);
    Pad2Value(d.day);
    assert t[0] == mm[0] && t[1] == mm[1] && t[2] == '-';
    assert t[3..] == dd;
    var cands := MonthCandidates(t);
    assert cands[0] == Field(d.month, 2);
    assert DayField(dd) == Some(Field(d.day, 2));
  }

  lemma Pad4Value(n: nat)
    requires n < 10000
    ensures var p := Pad4(n); 1000 * Dv(p[0]) + 100 * Dv(p[1]) + 10 * Dv(p[2]) + Dv(p[3]) == n
  {
    var q1 := n / 10;
    var q2 := q1 / 10;
    assert n == 10 * q1 + n % 10;
    assert q1 == 10 * q2 + q1 % 10;
    assert q2 == 10 * (q2 / 10) + q2 % 10;
  }

  /** Reading back a date the application wrote gives the same date. */
  lemma {:induction false} ParseIsoFormat(d: Date)
    requires ValidDate(d)
    ensures ParseDate(IsoFormat(d)) == Some(d)
  {
    var s := IsoFormat(d);
    var yyyy := Pad4(d.year);
    var t := Pad2(d.month) + "-" + Pad2(d.day);
    assert s == yyyy + "-" + t;
    assert s[..4] == yyyy;
    assert s[4] == '-';
    assert s[5..] == t;
    assert s[0] == yyyy[0] && s[1] == yyyy[1] && s[2] == yyyy[2] && s[3] == yyyy[3];
    Pad4Value(d.year);
    IsoMonthDay(d);
    assert |t| == 5;
  }

  /** A stored date prints as day/month/year. */
  lemma PrintedIsoDate(d: Date)
    requires ValidDate(d)
    ensures PrintedDate(IsoFormat(d)) == DayMonthYear(d)
  {
    ParseIsoFormat(d);
  }
}

=== FILE: items_json.dfy ===
/**
 The `items` column of the receipts table: the text `json.dumps(items)`
 writes for a list of receipt lines, and the reading of that text back.

 `json.dumps` with its default settings writes `ensure_ascii` output: a
 character outside printable ASCII becomes `\uXXXX` with lower-case hex
 digits (a surrogate pair above U+FFFF), and `"`, `\` and the control
 characters with a short form (`\n`, `\r`, `\t`, `\b`, `\f`) become that
 short form. Separators are `", "` and `": "`; the keys of an item appear in
 the order the controller builds the dictionary.

 The reader accepts the same grammar `json.loads` does for the strings and
 integers in that text, but only for an array of objects with these four
 keys in this order.
 */
module ItemsJson {
  import opened Wrappers
  import Numerals
  import opened Receipts
  import Seqs

  /** Printable ASCII, the characters written without escaping. */
  predicate IsPrintable(c: char) {
    ' ' <= c <= '~'
  }

  /** Every character is printable ASCII. */
  predicate AllPrintable(s: string) {
    forall c | c in s :: IsPrintable(c)
  }

  lemma PrintableConcat(a: string, b: string)
    requires AllPrintable(a) && AllPrintable(b)
    ensures AllPrintable(a + b)
  {
  }


  // ---------------------------------------------------------------------
  // Hexadecimal escapes
  // ---------------------------------------------------------------------

  function HexValue(c: char): (r: Option<nat>)
    ensures r.Some? ==> r.value < 16
  {
    if '0' <= c <= '9' then Some(c as int - '0' as int)
    else if 'a' <= c <= 'f' then Some(c as int - 'a' as int + 10)
    else if 'A' <= c <= 'F' then Some(c as int - 'A' as int + 10)
    else None
  }

  /** A lower-case hexadecimal digit. */
  function HexDigit(d: nat): (c: char)
    requires d < 16
    ensures IsPrintable(c) && HexValue(c) == Some(d)
  {
    if d < 10 then ('0' as int + d) as char else ('a' as int + d - 10) as char
  }

  /** `'{0:04x}'.format(n)`. */
  function Hex4(n: nat): (r: string)
    requires n < 0x10000
    ensures |r| == 4
  {
    var q1 := n / 16;
    var q2 := q1 / 16;
    [HexDigit(q2 / 16), HexDigit(q2 % 16), HexDigit(q1 % 16), HexDigit(n % 16)]
  }

  lemma Hex4Printable(n: nat)
    requires n < 0x10000
    ensures AllPrintable(Hex4(n))
  {
    var q1 := n / 16;
    var q2 := q1 / 16;
    var h := Hex4(n);
    assert h[0] == HexDigit(q2 / 16) && h[1] == HexDigit(q2 % 16);
    assert h[2] == HexDigit(q1 % 16) && h[3] == HexDigit(n % 16);
  }

  /** The value of the four hexadecimal digits at the start of `s`. */
  function ReadHex4(s: string): (r: Option<nat>)
    ensures r.Some? ==> r.value < 0x10000
  {
    if |s| < 4 then None
    else
      var a :- HexValue(s[0]);
      var b :- HexValue(s[1]);
      var c :- HexValue(s[2]);
      var d :- HexValue(s[3]);
      Some(((a * 16 + b) * 16 + c) * 16 + d)
  }

  /** Four hexadecimal digits written by `Hex4` are read back as the number. */
  lemma ReadHex4Of(n: nat, s: string)
    requires n < 0x10000
    requires |s| >= 4 && s[..4] == Hex4(n)
    ensures ReadHex4(s) == Some(n)
  {
    var q1 := n / 16;
    var q2 := q1 / 16;
    assert s[0] == HexDigit(q2 / 16) && s[1] == HexDigit(q2 % 16);
    assert s[2] == HexDigit(q1 % 16) && s[3] == HexDigit(n % 16);
    assert q2 == (q2 / 16) * 16 + q2 % 16;
    assert q1 == q2 * 16 + q1 % 16;
    assert n == q1 * 16 + n % 16;
  }

  /** `\uXXXX`. */
  function UnicodeEscape(n: nat): (r: string)
    requires n < 0x10000
    ensures |r| == 6 && r[0] == '\\'
  {
    "\\u" + Hex4(n)
  }

  lemma UnicodeEscapePrintable(n: nat)
    requires n < 0x10000
    ensures AllPrintable(UnicodeEscape(n))
  {
    Hex4Printable(n);
    PrintableConcat("\\u", Hex4(n));
  }

  // ---------------------------------------------------------------------
  // Strings
  // ---------------------------------------------------------------------

  /** How one character of a string is written. */
  function EscapeChar(c: char): (r: string)
    ensures r != [] && r[0] != '"'
  {
    if c == '"' then "\\\""
    else if c == '\\' then "\\\\"
    else if c == '\n' then "\\n"
    else if c == '\r' then "\\r"
    else if c == '\t' then "\\t"
    else if c == '\U{8}' then "\\b"
    else if c == '\U{C}' then "\\f"
    else if IsPrintable(c) then [c]
    else if c as int < 0x10000 then UnicodeEscape(c as int)
    else
      var n := c as int - 0x10000;
      UnicodeEscape(0xD800 + n / 0x400) + UnicodeEscape(0xDC00 + n % 0x400)
  }

  /** Whatever the character, its escape is printable ASCII. */
  lemma EscapeCharPrintable(c: char)
    ensures AllPrintable(EscapeChar(c))
  {
    if c == '"' || c == '\\' || c == '\n' || c == '\r' || c == '\t' || c == '\U{8}' || c == '\U{C}' {
      ShortEscapesPrintable();
    } else if IsPrintable(c) {
      assert EscapeChar(c) == [c];
    } else if c as int < 0x10000 {
      UnicodeEscapePrintable(c as int);
    } else {
      SurrogatesPrintable(c);
    }
  }

  lemma ShortEscapesPrintable()
    ensures AllPrintable("\\\"") && AllPrintable("\\\\") && AllPrintable("\\n") && AllPrintable("\\r")
    ensures AllPrintable("\\t") && AllPrintable("\\b") && AllPrintable("\\f")
  {
  }

  lemma SurrogatesPrintable(c: char)
    requires c as int >= 0x10000
    ensures AllPrintable(EscapeChar(c))
  {
    var n := c as int - 0x10000;
    var hi, lo := 0xD800 + n / 0x400, 0xDC00 + n % 0x400;
    EscapeSurrogates(c);
    UnicodeEscapePrintable(hi);
    UnicodeEscapePrintable(lo);
    PrintableConcat(UnicodeEscape(hi), UnicodeEscape(lo));
  }

  /** The characters of a string, each written by `EscapeChar`. */
  function EscapeString(s: string): (r: string)
  {
    if s == [] then [] else EscapeChar(s[0]) + EscapeString(s[1..])
  }

  lemma {:induction false} EscapeStringPrintable(s: string)
    ensures AllPrintable(EscapeString(s))
    decreases |s|
  {
    if s != [] {
      EscapeCharPrintable(s[0]);
      EscapeStringPrintable(s[1..]);
      PrintableConcat(EscapeChar(s[0]), EscapeString(s[1..]));
    }
  }

  /** The character an escape `\e` with a one-letter `e` stands for. */
  function ShortEscape(e: char): Option<char> {
    if e == '"' then Some('"')
    else if e == '\\' then Some('\\')
    else if e == '/' then Some('/')
    else if e == 'b' then Some('\U{8}')
    else if e == 'f' then Some('\U{C}')
    else if e == 'n' then Some('\n')
    else if e == 'r' then Some('\r')
    else if e == 't' then Some('\t')
    else None
  }

  /** The rest of a `\u` escape: four hex digits, or a surrogate pair written
      as two escapes. A lone surrogate is refused. */
  function ReadUnicode(s: string): (r: Option<(char, string)>)
    ensures r.Some? ==> |r.value.1| < |s|
  {
    var hi :- ReadHex4(s);
    if 0xD800 <= hi <= 0xDBFF then
      if |s| >= 10 && s[4] == '\\' && s[5] == 'u' then
        var lo :- ReadHex4(s[6..]);
        if 0xDC00 <= lo <= 0xDFFF then
          Some(((0x10000 + (hi - 0xD800) * 0x400 + (lo - 0xDC00)) as char, s[10..]))
        else None
      else None
    else if 0xDC00 <= hi <= 0xDFFF then None
    else Some((hi as char, s[4..]))
  }

  /** One character of a string body: an unescaped character other than `"`
      and the control characters, or an escape. */
  function ReadChar(s: string): (r: Option<(char, string)>)
    ensures r.Some? ==> |r.value.1| < |s|
  {
    if s == [] || s[0] == '"' || s[0] < ' ' then None
    else if s[0] != '\\' then Some((s[0], s[1..]))
    else if |s| < 2 then None
    else if s[1] == 'u' then ReadUnicode(s[2..])
    else
      var c :- ShortEscape(s[1]);
      Some((c, s[2..]))
  }

  /** A string body up to and including its closing `"`: the characters read
      and the text after the quote. */
  function ReadString(s: string): (r: Option<(string, string)>)
    ensures r.Some? ==> |r.value.1| < |s|
    decreases |s|
  {
    if s == [] then None
    else if s[0] == '"' then Some(([], s[1..]))
    else
      var first :- ReadChar(s);
      var more :- ReadString(first.1);
      Some(([first.0] + more.0, more.1))
  }

  /** An escape written for a character reads back as that character. */
  lemma ReadEscapeChar(c: char, rest: string)
    ensures ReadChar(EscapeChar(c) + rest) == Some((c, rest))
  {
    var e := EscapeChar(c);
    var s := e + rest;
    assert s[0] == e[0];
    if |e| == 2 {
      assert s[1] == e[1] && s[2..] == rest;
    } else if |e| == 6 {
      ReadUnicodeOf(c, rest);
    } else if |e| == 12 {
      ReadSurrogatePair(c, rest);
    } else {
      assert s[1..] == rest;
    }
  }

  lemma ReadUnicodeOf(c: char, rest: string)
    requires !IsPrintable(c) && c as int < 0x10000
    requires EscapeChar(c) == UnicodeEscape(c as int)
    ensures ReadChar(EscapeChar(c) + rest) == Some((c, rest))
  {
    var n := c as int;
    var s := UnicodeEscape(n) + rest;
    assert s[0] == '\\' && s[1] == 'u';
    var t := s[2..];
    assert t[..4] == Hex4(n);
    ReadHex4Of(n, t);
    assert t[4..] == rest;
  }

  lemma ReadSurrogatePair(c: char, rest: string)
    requires c as int >= 0x10000
    ensures ReadChar(EscapeChar(c) + rest) == Some((c, rest))
  {
    EscapeSurrogates(c);
    ReadSurrogates(c, rest);
  }

  lemma ReadSurrogates(c: char, rest: string)
    requires c as int >= 0x10000
    ensures var n := c as int - 0x10000;
      ReadChar(UnicodeEscape(0xD800 + n / 0x400) + UnicodeEscape(0xDC00 + n % 0x400) + rest) == Some((c, rest))
  {
    var n := c as int - 0x10000;
    ReadPair(0xD800 + n / 0x400, 0xDC00 + n % 0x400, rest);
    SurrogateCode(c);
  }

  /** The surrogate pair written for a character encodes that character. */
  lemma SurrogateCode(c: char)
    requires c as int >= 0x10000
    ensures var n := c as int - 0x10000;
      var hi, lo := 0xD800 + n / 0x400, 0xDC00 + n % 0x400;
      (0x10000 + (hi - 0xD800) * 0x400 + (lo - 0xDC00)) as char == c
  {
  }

  /** A character beyond the 16-bit range is written as a surrogate pair. */
  lemma EscapeSurrogates(c: char)
    requires c as int >= 0x10000
    ensures var n := c as int - 0x10000;
      EscapeChar(c) == UnicodeEscape(0xD800 + n / 0x400) + UnicodeEscape(0xDC00 + n % 0x400)
  {
  }

  /** Two escapes forming a surrogate pair read back as the one character they encode. */
  lemma ReadPair(hi: nat, lo: nat, rest: string)
    requires 0xD800 <= hi <= 0xDBFF && 0xDC00 <= lo <= 0xDFFF
    ensures ReadChar(UnicodeEscape(hi) + UnicodeEscape(lo) + rest)
      == Some(((0x10000 + (hi - 0xD800) * 0x400 + (lo - 0xDC00)) as char, rest))
  {
    var s := UnicodeEscape(hi) + UnicodeEscape(lo) + rest;
    assert s[0] == '\\' && s[1] == 'u';
    var t := s[2..];
    assert t[..4] == Hex4(hi);
    assert t[4] == '\\' && t[5] == 'u';
    assert t[6..][..4] == Hex4(lo);
    assert t[10..] == rest;
    ReadPairBody(hi, lo, t);
  }

  lemma ReadPairBody(hi: nat, lo: nat, t: string)
    requires 0xD800 <= hi <= 0xDBFF && 0xDC00 <= lo <= 0xDFFF
    requires |t| >= 10 && t[..4] == Hex4(hi) && t[4] == '\\' && t[5] == 'u' && t[6..][..4] == Hex4(lo)
    ensures ReadUnicode(t) == Some(((0x10000 + (hi - 0xD800) * 0x400 + (lo - 0xDC00)) as char, t[10..]))
  {
    ReadHex4Of(hi, t);
    ReadHex4Of(lo, t[6..]);
    ReadUnicodePair(t, hi, lo);
  }

  /** How `ReadUnicode` reads a high surrogate followed by a low one. */
  lemma ReadUnicodePair(s: string, hi: nat, lo: nat)
    requires 0xD800 <= hi <= 0xDBFF && 0xDC00 <= lo <= 0xDFFF
    requires |s| >= 10 && s[4] == '\\' && s[5] == 'u'
    requires ReadHex4(s) == Some(hi) && ReadHex4(s[6..]) == Some(lo)
    ensures ReadUnicode(s) == Some(((0x10000 + (hi - 0xD800) * 0x400 + (lo - 0xDC00)) as char, s[10..]))
  {
  }

  /** A written string body followed by its closing quote reads back as the string. */
  lemma {:induction false} ReadEscapeString(t: string, rest: string)
    ensures ReadString(EscapeString(t) + ("\"" + rest)) == Some((t, rest))
    decreases |t|
  {
    if t == [] {
      var s := EscapeString(t) + ("\"" + rest);
      assert s == "\"" + rest;
      assert s[1..] == rest;
    } else {
      var q := "\"" + rest;
      var tail := EscapeString(t[1..]) + q;
      EscapeStringCons(t, q);
      ReadEscapeString(t[1..], rest);
      ReadEscapeChar(t[0], tail);
      ReadStringStep(EscapeChar(t[0]) + tail, t[0], tail, t[1..], rest);
      assert [t[0]] + t[1..] == t;
    }
  }

  lemma EscapeStringCons(t: string, q: string)
    requires t != []
    ensures EscapeString(t) + q == EscapeChar(t[0]) + (EscapeString(t[1..]) + q)
  {
    Seqs.AppendAssoc(EscapeChar(t[0]), EscapeString(t[1..]), q);
  }

  /** A character followed by the rest of a string body. */
  lemma ReadStringStep(s: string, c: char, tail: string, more: string, rest: string)
    requires ReadChar(s) == Some((c, tail)) && ReadString(tail) == Some((more, rest))
    ensures ReadString(s) == Some(([c] + more, rest))
  {
  }

  // ---------------------------------------------------------------------
  // Integers
  // ---------------------------------------------------------------------

  /** The number of decimal digits at the start of `s`. */
  function DigitRun(s: string): (k: nat)
    ensures k <= |s|
    ensures Numerals.AllDigits(s[..k])
    ensures k < |s| ==> !Numerals.IsDigit(s[k])
  {
    if s == [] || !Numerals.IsDigit(s[0]) then 0
    else
      var k := 1 + DigitRun(s[1..]);
      assert s[..k] == [s[0]] + s[1..][..k - 1];
      k
  }

  /** A JSON integer without sign: `0`, or digits not starting with `0`. */
  function ReadNatural(s: string): (r: Option<(nat, string)>)
    ensures r.Some? ==> |r.value.1| < |s|
  {
    var k := DigitRun(s);
    if k == 0 || (k > 1 && s[0] == '0') then None
    else Some((Numerals.DigitsValue(s[..k]), s[k..]))
  }

  /** A JSON integer, with an optional leading minus. */
  function ReadInt(s: string): (r: Option<(int, string)>)
    ensures r.Some? ==> |r.value.1| < |s|
  {
    if s != [] && s[0] == '-' then
      var m :- ReadNatural(s[1..]);
      var v: int := -(m.0 as int);
      Some((v, m.1))
    else
      var m :- ReadNatural(s);
      Some((m.0, m.1))
  }

  /** Text that does not continue a number. */
  predicate EndsNumber(rest: string) {
    rest == [] || !Numerals.IsDigit(rest[0])
  }

  lemma {:induction false} DigitRunOf(d: string, rest: string)
    requires Numerals.AllDigits(d) && EndsNumber(rest)
    ensures DigitRun(d + rest) == |d|
    decreases |d|
  {
    if d == [] {
      assert d + rest == rest;
    } else {
      assert (d + rest)[0] == d[0];
      assert (d + rest)[1..] == d[1..] + rest;
      DigitRunOf(d[1..], rest);
    }
  }

  lemma ReadDecimal(n: nat, rest: string)
    requires EndsNumber(rest)
    ensures ReadNatural(Numerals.Decimal(n) + rest) == Some((n, rest))
  {
    var d := Numerals.Decimal(n);
    var s := d + rest;
    DigitRunOf(d, rest);
    assert s[..|d|] == d && s[|d|..] == rest;
    assert s[0] == d[0];
    Numerals.DecimalRoundTrip(n);
  }

  /** `str(n)` followed by text that does not continue it reads back as `n`. */
  lemma ReadIntToString(n: int, rest: string)
    requires EndsNumber(rest)
    ensures ReadInt(Numerals.IntToString(n) + rest) == Some((n, rest))
  {
    if n < 0 {
      ReadNegative(n, rest);
    } else {
      ReadNonNegative(n, rest);
    }
  }

  lemma ReadNegative(n: int, rest: string)
    requires n < 0 && EndsNumber(rest)
    ensures ReadInt(Numerals.IntToString(n) + rest) == Some((n, rest))
  {
    var d := Numerals.Decimal(-n);
    Seqs.AppendAssoc("-", d, rest);
    Seqs.Halves("-", d + rest);
    ReadDecimal(-n, rest);
    ReadMinus("-" + (d + rest), -n, rest);
  }

  lemma ReadMinus(s: string, m: nat, rest: string)
    requires s != [] && s[0] == '-' && ReadNatural(s[1..]) == Some((m, rest))
    ensures ReadInt(s) == Some((-(m as int), rest))
  {
  }

  lemma ReadNonNegative(n: int, rest: string)
    requires n >= 0 && EndsNumber(rest)
    ensures ReadInt(Numerals.IntToString(n) + rest) == Some((n, rest))
  {
    var d := Numerals.Decimal(n);
    var s := d + rest;
    assert s[0] == d[0] && Numerals.IsDigit(d[0]);
    ReadDecimal(n, rest);
  }

  lemma IntToStringPrintable(n: int)
    ensures AllPrintable(Numerals.IntToString(n))
  {
    var d := Numerals.Decimal(if n < 0 then -n else n);
    assert AllPrintable(d) by {
      forall c | c in d ensures IsPrintable(c) { var i :| 0 <= i < |d| && d[i] == c; assert Numerals.IsDigit(d[i]); }
    }
    if n < 0 {
      PrintableConcat("-", d);
    }
  }

  // ---------------------------------------------------------------------
  // Items
  // ---------------------------------------------------------------------

  /** `s` with `lit` removed from its front, when it starts with `lit`. */
  function Expect(lit: string, s: string): (r: Option<string>)
    ensures r.Some? ==> |r.value| == |s| - |lit|
  {
    if |lit| <= |s| && s[..|lit|] == lit then Some(s[|lit|..]) else None
  }

  lemma ExpectOf(lit: string, rest: string)
    ensures Expect(lit, lit + rest) == Some(rest)
  {
    assert (lit + rest)[..|lit|] == lit;
    assert (lit + rest)[|lit|..] == rest;
  }

  const NameKey := "{\"name\": \""
  const QuantityKey := ", \"quantity\": "
  const UnitPriceKey := ", \"unit_price\": "
  const TotalKey := ", \"total\": "

  /** `json.dumps({'name': n, 'quantity': q, 'unit_price': u, 'total': t})`
      followed by `rest`. */
  function WriteItem(it: Item, rest: string): string {
    NameKey + (EscapeString(it.name) + ("\"" + (QuantityKey + (Numerals.IntToString(it.quantity)
      + (UnitPriceKey + (Numerals.IntToString(it.unitPrice)
      + (TotalKey + (Numerals.IntToString(it.total) + ("}" + rest)))))))))
  }

  /** One object of the array and the text after its closing brace. */
  function ReadItem(s: string): (r: Option<(Item, string)>)
    ensures r.Some? ==> |r.value.1| < |s|
  {
    var s1 :- Expect(NameKey, s);
    var name :- ReadString(s1);
    var s2 :- Expect(QuantityKey, name.1);
    var q :- ReadInt(s2);
    var s3 :- Expect(UnitPriceKey, q.1);
    var u :- ReadInt(s3);
    var s4 :- Expect(TotalKey, u.1);
    var t :- ReadInt(s4);
    var s5 :- Expect("}", t.1);
    Some((Item(name.0, q.0, u.0, t.0), s5))
  }

  /** An object written for an item reads back as the item, leaving what follows it. */
  lemma ReadWrittenItem(it: Item, rest: string)
    ensures ReadItem(WriteItem(it, rest)) == Some((it, rest))
  {
    var a5 := "}" + rest;
    var a4 := Numerals.IntToString(it.total) + a5;
    var a3 := TotalKey + a4;
    var a2 := Numerals.IntToString(it.unitPrice) + a3;
    var a1 := UnitPriceKey + a2;
    var a0 := Numerals.IntToString(it.quantity) + a1;
    var b := QuantityKey + a0;
    ExpectOf(NameKey, EscapeString(it.name) + ("\"" + b));
    ReadEscapeString(it.name, b);
    ExpectOf(QuantityKey, a0);
    ReadIntToString(it.quantity, a1);
    ExpectOf(UnitPriceKey, a2);
    ReadIntToString(it.unitPrice, a3);
    ExpectOf(TotalKey, a4);
    ReadIntToString(it.total, a5);
    ExpectOf("}", rest);
  }

  lemma WriteItemPrintable(it: Item, rest: string)
    requires AllPrintable(rest)
    ensures AllPrintable(WriteItem(it, rest))
  {
    var numbers := QuantityKey + (Numerals.IntToString(it.quantity)
      + (UnitPriceKey + (Numerals.IntToString(it.unitPrice)
      + (TotalKey + (Numerals.IntToString(it.total) + ("}" + rest))))));
    NumbersPrintable(it, rest);
    LiteralsPrintable();
    PrintableConcat("\"", numbers);
    EscapeStringPrintable(it.name);
    PrintableConcat(EscapeString(it.name), "\"" + numbers);
    PrintableConcat(NameKey, EscapeString(it.name) + ("\"" + numbers));
  }

  /** The three numeric fields and the closing brace. */
  lemma NumbersPrintable(it: Item, rest: string)
    requires AllPrintable(rest)
    ensures AllPrintable(QuantityKey + (Numerals.IntToString(it.quantity)
      + (UnitPriceKey + (Numerals.IntToString(it.unitPrice)
      + (TotalKey + (Numerals.IntToString(it.total) + ("}" + rest)))))))
  {
    LiteralsPrintable();
    PrintableConcat("}", rest);
    FieldPrintable(TotalKey, it.total, "}" + rest);
    FieldPrintable(UnitPriceKey, it.unitPrice, TotalKey + (Numerals.IntToString(it.total) + ("}" + rest)));
    FieldPrintable(QuantityKey, it.quantity, UnitPriceKey + (Numerals.IntToString(it.unitPrice)
      + (TotalKey + (Numerals.IntToString(it.total) + ("}" + rest)))));
  }

  /** A key followed by a number. */
  lemma FieldPrintable(key: string, n: int, rest: string)
    requires AllPrintable(key) && AllPrintable(rest)
    ensures AllPrintable(key + (Numerals.IntToString(n) + rest))
  {
    IntToStringPrintable(n);
    PrintableConcat(Numerals.IntToString(n), rest);
    PrintableConcat(key, Numerals.IntToString(n) + rest);
  }

  /** The fixed text of the format is printable. */
  lemma LiteralsPrintable()
    ensures AllPrintable(NameKey) && AllPrintable(QuantityKey)
    ensures AllPrintable(UnitPriceKey) && AllPrintable(TotalKey)
    ensures AllPrintable("}") && AllPrintable("\"")
  {
  }


  // ---------------------------------------------------------------------
  // The list
  // ---------------------------------------------------------------------

  /** The objects of the array from index `k` on, separated by `", "`,
      followed by `rest`. */
  function WriteFrom(items: seq<Item>, k: nat, rest: string): string
    requires k <= |items|
    decreases |items| - k
  {
    if k == |items| then rest
    else if k + 1 == |items| then WriteItem(items[k], rest)
    else WriteItem(items[k], ", " + WriteFrom(items, k + 1, rest))
  }

  /** `json.dumps(items)`. */
  function Encode(items: seq<Item>): string {
    "[" + WriteFrom(items, 0, "]")
  }

  /** Objects separated by `", "` up to the closing `]`: the items read and the
      text after the bracket. */
  function ReadItems(s: string): (r: Option<(seq<Item>, string)>)
    ensures r.Some? ==> |r.value.1| < |s|
    decreases |s|
  {
    var first :- ReadItem(s);
    var rest := first.1;
    if |rest| >= 2 && rest[0] == ',' && rest[1] == ' ' then
      var more :- ReadItems(rest[2..]);
      Some(([first.0] + more.0, more.1))
    else if rest != [] && rest[0] == ']' then Some(([first.0], rest[1..]))
    else None
  }

  /** `json.loads(s)` for the text of an items list; `None` where it would
      raise or where the text is not a list of items. */
  function Decode(s: string): Option<seq<Item>> {
    var body :- Expect("[", s);
    if body == "]" then Some([])
    else
      var r :- ReadItems(body);
      if r.1 == [] then Some(r.0) else None
  }

  lemma {:induction false} ReadWrittenFrom(items: seq<Item>, k: nat, rest: string)
    requires k < |items|
    ensures ReadItems(WriteFrom(items, k, "]" + rest)) == Some((items[k..], rest))
    decreases |items| - k
  {
    if k + 1 == |items| {
      ReadLastItem(items[k], rest);
      assert items[k..] == [items[k]];
    } else {
      var tail := WriteFrom(items, k + 1, "]" + rest);
      ReadWrittenFrom(items, k + 1, rest);
      ReadNextItem(items[k], tail, items[k + 1..], rest);
      Seqs.DropFirst(items, k);
    }
  }

  lemma ReadLastItem(it: Item, rest: string)
    ensures ReadItems(WriteItem(it, "]" + rest)) == Some(([it], rest))
  {
    ReadWrittenItem(it, "]" + rest);
    assert ("]" + rest)[1..] == rest;
  }

  lemma ReadNextItem(it: Item, tail: string, more: seq<Item>, rest: string)
    requires ReadItems(tail) == Some((more, rest))
    ensures ReadItems(WriteItem(it, ", " + tail)) == Some(([it] + more, rest))
  {
    ReadWrittenItem(it, ", " + tail);
    assert (", " + tail)[2..] == tail;
  }

  /** Reading back the text written for a list of items gives the list. */
  lemma DecodeEncode(items: seq<Item>)
    ensures Decode(Encode(items)) == Some(items)
  {
    var body := WriteFrom(items, 0, "]");
    ExpectOf("[", body);
    if items != [] {
      assert "]" + "" == "]";
      ReadWrittenFrom(items, 0, "");
      assert items[0..] == items;
      assert body[0] == '{';
    }
  }
}

=== FILE: laser_printer.dfy ===
/**
 The plain-text receipt sent to the laser printer: a list of lines 48
 columns wide, joined with newlines. Header (company), client block, one
 three-line block per item, then the total and the footer.

 The layout is built as a list of `Line` values and rendered to text
 afterwards, so that where each line goes and what each line reads are
 stated separately.
 */
module LaserPrinter {
  import opened Wrappers
  import opened Text
  import Numerals
  import Dates
  import opened Receipts
  import Seqs

  /** Characters per line on A6 paper. */
  const Width: nat := 48

  /** Longest item name printed without truncation. */
  const MaxNameChars: nat := 44

  /** The labelled pieces of text a line can carry. */
  datatype Field =
    | CompanyName   // centred
    | AddressPiece  // centred
    | CompanyPhone  // `f"Tel: {phone}"`, centred
    | CompanyNif    // `f"NIF: {nif}"`, centred
    | CompanyStat   // `f"STAT: {stat}"`, centred
    | ClientName    // `f"CLIENT: {client}"`
    | ClientPhone   // `f"Tel: {phone}"`
    | Number        // `f"No: {number}"`
    | Payment       // `f"Paiement: {payment}"`, centred

  /** The fixed, centred lines. */
  datatype Heading = ListHeading | TotalHeading | Thanks | ThanksMalagasy

  /** One printed line, before it is rendered to text. */
  datatype Line =
    | Rule(c: char)                             // `c * 48`
    | Entry(field: Field, value: string)
    | Fixed(heading: Heading)
    | DateOf(raw: string)                       // `f"Date: {date_text}"`
    | ItemName(index: nat, name: string)        // `f"{i}. {name}"`, name cut to 44 characters
    | ItemDetail(item: Item, currency: string)  // quantity, unit price and total
    | TotalAmount(total: int, currency: string) // `f"{total:,.0f} {currency}"`, centred
    | Blank                                     // `""`

  /** The text printed before a field's value. */
  function Caption(f: Field): string {
    match f
    case CompanyName => ""
    case AddressPiece => ""
    case CompanyPhone => "Tel: "
    case CompanyNif => "NIF: "
    case CompanyStat => "STAT: "
    case ClientName => "CLIENT: "
    case ClientPhone => "Tel: "
    case Number => "No: "
    case Payment => "Paiement: "
  }

  /** Company lines and the payment line are centred; the client block is not. */
  predicate IsCentred(f: Field) {
    f in {CompanyName, AddressPiece, CompanyPhone, CompanyNif, CompanyStat, Payment}
  }

  function RenderEntry(f: Field, value: string): string {
    if IsCentred(f) then Center(Caption(f) + value, Width) else Caption(f) + value
  }

  function HeadingText(h: Heading): string {
    match h
    case ListHeading => "LISTE DES ARTICLES"
    case TotalHeading => "TOTAL A PAYER"
    case Thanks => "Merci pour votre achat!"
    case ThanksMalagasy => "Mankasitraka Tompoko!"
  }

  /** The text of a line. */
  function Render(l: Line): (r: string)
    ensures l.Rule? ==> |r| == Width && forall i :: 0 <= i < |r| ==> r[i] == l.c
  {
    match l
    case Rule(c) => Repeat(c, Width)
    case Entry(f, value) => RenderEntry(f, value)
    case Fixed(h) => Center(HeadingText(h), Width)
    case DateOf(raw) => "Date: " + Dates.PrintedDate(raw)
    case ItemName(i, name) => NameLine(i, Truncate(name, MaxNameChars))
    case ItemDetail(it, currency) => DetailLine(it, currency)
    case TotalAmount(total, currency) => Center(Numerals.FormatAmount(total) + " " + currency, Width)
    case Blank => ""
  }

  /** The settings the layout reads, each with the default `settings.get` gives
      it; the address is already split at its newlines. */
  datatype Company = Company(
    name: string, address: seq<string>, phone: string, nif: string, stat: string, currency: string)

  function CompanyOf(settings: Settings): (co: Company)
    ensures |co.address| == CountChar(Setting(settings, "company_address", ""), '\n') + 1
    ensures Join(co.address, "\n") == Setting(settings, "company_address", "")
  {
    Company(
      Setting(settings, "company_name", ""),
      SplitOn(Setting(settings, "company_address", ""), '\n'),
      Setting(settings, "company_phone", ""),
      Setting(settings, "company_nif", ""),
      Setting(settings, "company_stat", ""),
      Setting(settings, "currency", "Ar"))
  }

  /** How many of the optional company lines (phone, NIF, STAT) are printed. */
  function OptionalCount(co: Company): nat {
    (if co.phone != "" then 1 else 0) + (if co.nif != "" then 1 else 0) + (if co.stat != "" then 1 else 0)
  }

  /** The phone, NIF and STAT lines, each only when its setting is non-empty. */
  function ContactLines(co: Company): (r: seq<Line>)
    ensures |r| == OptionalCount(co)
  {
    Seqs.Optional(co.phone != "", Entry(CompanyPhone, co.phone))
    + Seqs.Optional(co.nif != "", Entry(CompanyNif, co.nif))
    + Seqs.Optional(co.stat != "", Entry(CompanyStat, co.stat))
  }

  /** Index of a company contact field among the contact lines, counting
      only the non-empty settings before it. */
  function ContactIndex(co: Company, f: Field): nat {
    match f
    case CompanyNif => (if co.phone != "" then 1 else 0)
    case CompanyStat => (if co.phone != "" then 1 else 0) + (if co.nif != "" then 1 else 0)
    case _ => 0
  }

  /** The value a company contact field is printed with. */
  function ContactValue(co: Company, f: Field): string {
    match f
    case CompanyPhone => co.phone
    case CompanyNif => co.nif
    case CompanyStat => co.stat
    case _ => ""
  }

  predicate IsContact(f: Field) {
    f == CompanyPhone || f == CompanyNif || f == CompanyStat
  }

  /** Each contact line is present exactly when its setting is non-empty, in
      the order phone, NIF, STAT, and carries that setting's value. */
  lemma ContactShape(co: Company, f: Field)
    requires IsContact(f)
    ensures var r := ContactLines(co);
      && (ContactValue(co, f) != "" ==>
            ContactIndex(co, f) < |r| && r[ContactIndex(co, f)] == Entry(f, ContactValue(co, f)))
      && (forall k :: 0 <= k < |r| && r[k].Entry? && r[k].field == f ==>
            ContactValue(co, f) != "" && k == ContactIndex(co, f) && r[k].value == ContactValue(co, f))
  {
  }

  /** The company header: a rule, the centred name, a rule, one centred line
      per address piece, the optional phone/NIF/STAT lines, a blank and a rule. */
  function HeaderLines(co: Company): (r: seq<Line>)
    ensures |r| == 5 + |co.address| + OptionalCount(co)
  {
    var pieces := co.address;
    var address := seq(|pieces|, k requires 0 <= k < |pieces| => Entry(AddressPiece, pieces[k]));
    [Rule('='), Entry(CompanyName, co.name), Rule('=')] + address + ContactLines(co) + [Blank, Rule('-')]
  }

  /** The header line by line: the name between two '=' rules, the address
      pieces in order, and a blank and a '-' rule to close. */
  lemma HeaderShape(co: Company)
    ensures var r := HeaderLines(co);
      && r[0] == Rule('=') && r[1] == Entry(CompanyName, co.name) && r[2] == Rule('=')
      && (forall k :: 0 <= k < |co.address| ==> r[3 + k] == Entry(AddressPiece, co.address[k]))
      && r[|r| - 2] == Blank && r[|r| - 1] == Rule('-')
  {
  }

  /** The Tel, NIF and STAT lines of the header follow the address pieces in
      that order; each is printed exactly when its setting is non-empty, and
      no other header line carries that field. */
  lemma HeaderContact(co: Company, f: Field)
    requires IsContact(f)
    ensures var r := HeaderLines(co); var p := 3 + |co.address|;
      && (ContactValue(co, f) != "" ==>
            p + ContactIndex(co, f) < |r| && r[p + ContactIndex(co, f)] == Entry(f, ContactValue(co, f)))
      && (forall k :: 0 <= k < |r| && r[k].Entry? && r[k].field == f ==>
            ContactValue(co, f) != "" && k == p + ContactIndex(co, f) && r[k].value == ContactValue(co, f))
      && ((exists k :: 0 <= k < |r| && r[k] == Entry(f, ContactValue(co, f))) <==> ContactValue(co, f) != "")
  {
    var pieces := co.address;
    var head := [Rule('='), Entry(CompanyName, co.name), Rule('=')];
    var address := seq(|pieces|, k requires 0 <= k < |pieces| => Entry(AddressPiece, pieces[k]));
    var contact := ContactLines(co);
    var tail := [Blank, Rule('-')];
    var r := HeaderLines(co);
    var p := 3 + |co.address|;
    assert r == (head + address) + contact + tail;
    ContactShape(co, f);
    forall k | 0 <= k < |r| && r[k].Entry? && r[k].field == f
      ensures p <= k < p + |contact| && r[k] == contact[k - p]
    {
      if k < p || k >= p + |contact| {
        assert false;
      }
      Seqs.InMiddle(head + address, contact, tail, k - p);
    }
    if ContactValue(co, f) != "" {
      Seqs.InMiddle(head + address, contact, tail, ContactIndex(co, f));
    }
  }

  /** Whether the client's phone line is printed (`if receipt_data.get('client_phone')`). */
  predicate HasClientPhone(r: ReceiptData) {
    r.clientPhone.Some? && r.clientPhone.value != ""
  }

  /** Client, number and date, then the list heading. */
  function ClientLines(r: ReceiptData): (lines: seq<Line>)
    ensures |lines| == 8 + (if HasClientPhone(r) then 1 else 0)
  {
    [Entry(ClientName, r.clientName.GetOr("Non specifie"))]
    + Seqs.Optional(HasClientPhone(r), Entry(ClientPhone, r.clientPhone.GetOr("")))
    + [Blank, Entry(Number, r.receiptNumber), DateOf(r.date), Blank, Rule('='), Fixed(ListHeading), Blank]
  }

  /** The client block line by line: the client's name ("Non specifie" when
      absent), the phone only when one was given, then the number, the date
      and the opening of the item list. */
  lemma ClientShape(r: ReceiptData)
    ensures var lines := ClientLines(r); var o := |lines| - 7;
      && lines[0] == Entry(ClientName, r.clientName.GetOr("Non specifie"))
      && (HasClientPhone(r) ==> lines[1] == Entry(ClientPhone, r.clientPhone.value))
      && (!HasClientPhone(r) ==> forall k :: 0 <= k < |lines| ==> !(lines[k].Entry? && lines[k].field == ClientPhone))
      && lines[o] == Blank && lines[o + 1] == Entry(Number, r.receiptNumber)
      && lines[o + 2] == DateOf(r.date) && lines[o + 3] == Blank && lines[o + 4] == Rule('=')
      && lines[o + 5] == Fixed(ListHeading) && lines[o + 6] == Blank
  {
  }

  /** The three lines of every item from index `k` on: the (possibly
      truncated) name numbered from 1, the quantity/price detail, and a blank line. */
  function ItemLines(items: seq<Item>, currency: string, k: nat): (lines: seq<Line>)
    requires k <= |items|
    ensures |lines| == 3 * (|items| - k)
    ensures forall i :: k <= i < |items| ==>
      && lines[3 * (i - k)] == ItemName(i + 1, items[i].name)
      && lines[3 * (i - k) + 1] == ItemDetail(items[i], currency)
      && lines[3 * (i - k) + 2] == Blank
    decreases |items| - k
  {
    if k == |items| then []
    else
      var block := [ItemName(k + 1, items[k].name), ItemDetail(items[k], currency), Blank];
      var rest := ItemLines(items, currency, k + 1);
      forall i {:trigger items[i]} | k < i < |items|
        ensures (block + rest)[3 * (i - k)] == rest[3 * (i - k - 1)]
        ensures (block + rest)[3 * (i - k) + 1] == rest[3 * (i - k - 1) + 1]
        ensures (block + rest)[3 * (i - k) + 2] == rest[3 * (i - k - 1) + 2]
      {
      }
      block + rest
  }

  /** The total, the payment method and the closing lines. */
  function FooterLines(r: ReceiptData, currency: string): (lines: seq<Line>)
    ensures |lines| == 12
  {
    [Rule('='), Blank, Fixed(TotalHeading), TotalAmount(r.total, currency), Blank,
     Entry(Payment, r.paymentMethod.GetOr("Especes")), Blank,
     Rule('-'), Fixed(Thanks), Fixed(ThanksMalagasy), Blank, Blank]
  }

  /** The footer: a '=' rule, the heading and the total in the receipt's
      currency, the payment method ("Especes" when absent), a '-' rule and the
      thanks in French and Malagasy. */
  lemma FooterShape(r: ReceiptData, currency: string)
    ensures var lines := FooterLines(r, currency);
      && lines[0] == Rule('=') && lines[7] == Rule('-')
      && lines[2] == Fixed(TotalHeading) && lines[3] == TotalAmount(r.total, currency)
      && lines[5] == Entry(Payment, r.paymentMethod.GetOr("Especes"))
      && lines[8] == Fixed(Thanks) && lines[9] == Fixed(ThanksMalagasy)
  {
  }

  /** Every line of the receipt, in order. */
  function ReceiptLines(co: Company, r: ReceiptData): seq<Line> {
    HeaderLines(co) + ClientLines(r) + ItemLines(r.items, co.currency, 0) + FooterLines(r, co.currency)
  }

  /** The text of every line. */
  function RenderAll(lines: seq<Line>): (r: seq<string>)
    ensures |r| == |lines| && forall k :: 0 <= k < |lines| ==> r[k] == Render(lines[k])
  {
    seq(|lines|, k requires 0 <= k < |lines| => Render(lines[k]))
  }

  /** `_format_receipt_text`: the lines joined with newlines. */
  function FormatReceiptText(settings: Settings, r: ReceiptData): string {
    Join(RenderAll(ReceiptLines(CompanyOf(settings), r)), "\n")
  }

  /** Index of the first item line. */
  function ItemsStart(co: Company, r: ReceiptData): nat {
    |HeaderLines(co)| + |ClientLines(r)|
  }

  // ---------------------------------------------------------------------
  // Properties of the layout
  // ---------------------------------------------------------------------

  /** The number of lines: 25 fixed ones, one per address piece, the optional
      ones, and three per item. */
  lemma LineCount(co: Company, r: ReceiptData)
    ensures |ReceiptLines(co, r)| ==
      25 + |co.address| + OptionalCount(co)
      + (if HasClientPhone(r) then 1 else 0) + 3 * |r.items|
  {
  }

  /** Item `i` (from 0) occupies lines `ItemsStart + 3i` to `ItemsStart + 3i + 2`
      and is numbered `i + 1`. */
  lemma ItemBlock(co: Company, r: ReceiptData, i: nat)
    requires i < |r.items|
    ensures var lines := ReceiptLines(co, r); var s := ItemsStart(co, r);
      && s + 3 * i + 2 < |lines|
      && lines[s + 3 * i] == ItemName(i + 1, r.items[i].name)
      && lines[s + 3 * i + 1] == ItemDetail(r.items[i], co.currency)
      && lines[s + 3 * i + 2] == Blank
  {
    var h, c := HeaderLines(co), ClientLines(r);
    var it := ItemLines(r.items, co.currency, 0);
    var f := FooterLines(r, co.currency);
    Seqs.InMiddle(h + c, it, f, 3 * i);
    Seqs.InMiddle(h + c, it, f, 3 * i + 1);
    Seqs.InMiddle(h + c, it, f, 3 * i + 2);
  }

  /** The rules: the header opens with two '=' rules around the company name
      and closes with a '-' rule; the item list is opened by a '=' rule and
      closed by another; the footer has a '-' rule before the thanks. */
  lemma RulePositions(co: Company, r: ReceiptData)
    ensures var lines := ReceiptLines(co, r); var s := ItemsStart(co, r);
      && |lines| == s + 3 * |r.items| + 12
      && lines[0] == Rule('=') && lines[2] == Rule('=')
      && lines[|HeaderLines(co)| - 1] == Rule('-')
      && lines[s - 3] == Rule('=')
      && lines[s + 3 * |r.items|] == Rule('=')
      && lines[s + 3 * |r.items| + 7] == Rule('-')
  {
    LineCount(co, r);
    HeaderRules(co, r);
    ListRules(co, r);
    FooterRule(co, r);
  }

  lemma HeaderRules(co: Company, r: ReceiptData)
    ensures var lines := ReceiptLines(co, r); var h := |HeaderLines(co)|;
      h <= |lines| && lines[0] == Rule('=') && lines[2] == Rule('=') && lines[h - 1] == Rule('-')
  {
    var h := HeaderLines(co);
    var c := ClientLines(r);
    var it := ItemLines(r.items, co.currency, 0);
    HeaderFrame(co);
    Seqs.AppendAssoc(h, c, it);
    Seqs.AppendAssoc(h, c + it, FooterLines(r, co.currency));
  }

  lemma HeaderFrame(co: Company)
    ensures var r := HeaderLines(co);
      |r| >= 3 && r[0] == Rule('=') && r[2] == Rule('=') && r[|r| - 1] == Rule('-')
  {
  }

  lemma ListRules(co: Company, r: ReceiptData)
    ensures var lines := ReceiptLines(co, r); var s := ItemsStart(co, r);
      s + 3 * |r.items| < |lines| && lines[s - 3] == Rule('=') && lines[s + 3 * |r.items|] == Rule('=')
  {
    var h, c := HeaderLines(co), ClientLines(r);
    var it := ItemLines(r.items, co.currency, 0);
    var f := FooterLines(r, co.currency);
    ClientShape(r);
    FooterShape(r, co.currency);
    Seqs.AppendAssoc(h, c, it + f);
    Seqs.InMiddle(h, c, it + f, |c| - 3);
    Seqs.InMiddle(h + c + it, f, [], 0);
  }

  lemma FooterRule(co: Company, r: ReceiptData)
    ensures var lines := ReceiptLines(co, r); var s := ItemsStart(co, r);
      s + 3 * |r.items| + 7 < |lines| && lines[s + 3 * |r.items| + 7] == Rule('-')
  {
    var h, c := HeaderLines(co), ClientLines(r);
    var it := ItemLines(r.items, co.currency, 0);
    var f := FooterLines(r, co.currency);
    FooterShape(r, co.currency);
    Seqs.InMiddle(h + c + it, f, [], 7);
  }

  /** The date line sits five lines before the first item. */
  lemma DatePosition(co: Company, r: ReceiptData)
    ensures ReceiptLines(co, r)[ItemsStart(co, r) - 5] == DateOf(r.date)
  {
    var h, c := HeaderLines(co), ClientLines(r);
    ClientShape(r);
    Seqs.InMiddle(h, c, ItemLines(r.items, co.currency, 0) + FooterLines(r, co.currency), |c| - 5);
  }

  /** The text splits back at its newlines into exactly the rendered lines,
      one per layout line, as long as no rendered line holds a newline itself. */
  lemma TextLines(settings: Settings, r: ReceiptData)
    requires var texts := RenderAll(ReceiptLines(CompanyOf(settings), r));
      forall k :: 0 <= k < |texts| ==> '\n' !in texts[k]
    ensures var lines := ReceiptLines(CompanyOf(settings), r);
      var parts := SplitOn(FormatReceiptText(settings, r), '\n');
      && |parts| == |lines|
      && forall k :: 0 <= k < |lines| ==> parts[k] == Render(lines[k])
  {
    var texts := RenderAll(ReceiptLines(CompanyOf(settings), r));
    assert "\n" == ['\n'];
    SplitOnJoin(texts, '\n');
  }

  /** An item name of at most 44 characters is printed whole; a longer one is
      cut to its first 41 characters followed by "...", 44 in all. */
  lemma ItemNameShown(i: nat, name: string)
    ensures |name| <= MaxNameChars ==> Render(ItemName(i, name)) == NameLine(i, name)
    ensures |name| > MaxNameChars ==>
      Render(ItemName(i, name)) == NameLine(i, name[..41] + "...")
  {
  }

  /** A centred line shorter than the width is padded with spaces to exactly
      48 columns, with half the padding (rounded down) on the left; a line at
      least 48 long is printed as it is. */
  lemma CentredHeading(h: Heading)
    ensures var t := HeadingText(h); var r := Render(Fixed(h)); var l := (Width - |t|) / 2;
      && |t| < Width
      && |r| == Width
      && r[l..l + |t|] == t
      && AllSpace(r[..l]) && AllSpace(r[l + |t|..])
  {
  }

  /** The same for the centred company and payment lines. */
  lemma CentredEntry(f: Field, value: string)
    requires IsCentred(f)
    ensures var t := Caption(f) + value; var r := Render(Entry(f, value));
      && (|t| >= Width ==> r == t)
      && (|t| < Width ==>
            var l := (Width - |t|) / 2;
            |r| == Width && r[l..l + |t|] == t && AllSpace(r[..l]) && AllSpace(r[l + |t|..]))
  {
  }

  /** A receipt dated by the application (`%Y-%m-%d`) prints its date as day/month/year. */
  lemma StoredDatePrinted(d: Dates.Date)
    requires Dates.ValidDate(d)
    ensures Render(DateOf(Dates.IsoFormat(d))) == "Date: " + Dates.DayMonthYear(d)
  {
    Dates.PrintedIsoDate(d);
  }
}

=== FILE: name_examples.dfy ===
/**
 The worked examples of the name formatter's documentation, proved on the
 model. Each example is split into facts about single literals (the words of
 the input, the case mapping of each word, the join of the results), each in
 a lemma of its own, so that no proof has to evaluate the formatter on a
 literal in one go.
 */
module NameExamples {
  import opened Text
  import opened NameFormatter

  /** A name whose words and formatted tokens are known formats to their join. */
  lemma PersonCase(name: string, ws: seq<string>, out: string)
    requires ws != [] && forall k :: 0 <= k < |ws| ==> IsWord(ws[k])
    requires Words(name) == ws
    requires Join(PersonTokens(ws), " ") == out
    ensures FormatPersonName(name) == out
  {
    PersonOfWords(name);
  }

  /** The organisation counterpart of `PersonCase`. */
  lemma OrganizationCase(name: string, ws: seq<string>, out: string)
    requires ws != [] && forall k :: 0 <= k < |ws| ==> IsWord(ws[k])
    requires Words(name) == ws
    requires Join(OrganizationWords(ws), " ") == out
    ensures FormatOrganizationName(name) == out
  {
    OrganizationOfWords(name);
  }

  /** A non-empty run of ASCII letters is a word. */
  lemma LetterWord(w: string)
    requires w != [] && forall i :: 0 <= i < |w| ==> 'A' <= w[i] <= 'z'
    ensures IsWord(w)
  {
  }

  /** Lower-casing leaves small ASCII letters as they are. */
  lemma SmallLetters(s: string)
    requires forall i :: 0 <= i < |s| ==> 'a' <= s[i] <= 'z'
    ensures Lower(s) == s
  {
  }

  /** A word of small letters after its first character is capitalised by
      upper-casing that character alone. */
  lemma CapitalizeSmall(w: string)
    requires w != [] && forall i :: 1 <= i < |w| ==> 'a' <= w[i] <= 'z'
    ensures Capitalize(w) == [UpperChar(w[0])] + w[1..]
  {
    SmallLetters(w[1..]);
  }

  /** The words of a name written as two words and one space. */
  lemma TwoWords(name: string, a: string, b: string)
    requires IsWord(a) && IsWord(b) && name == Join([a, b], " ")
    ensures Words(name) == [a, b]
  {
    SpacedWords(name, [a, b]);
  }

  /** The words of a name written as three words and single spaces. */
  lemma ThreeWords(name: string, a: string, b: string, c: string)
    requires IsWord(a) && IsWord(b) && IsWord(c) && name == Join([a, b, c], " ")
    ensures Words(name) == [a, b, c]
  {
    SpacedWords(name, [a, b, c]);
  }

  /** The tokens of a three-word person name. */
  lemma ThreeTokens(a: string, b: string, c: string)
    requires IsWord(a) && IsWord(b) && IsWord(c)
    ensures PersonTokens([a, b, c]) == [Upper(a), Capitalize(b), [UpperChar(c[0]), '.']]
  {
    PersonTokensShape([a, b, c]);
  }

  /** The tokens of a two-word person name. */
  lemma TwoTokens(a: string, b: string)
    requires IsWord(a) && IsWord(b)
    ensures PersonTokens([a, b]) == [Upper(a), Capitalize(b)]
  {
    PersonTokensShape([a, b]);
  }

  /** The words of a two-word organisation name. */
  lemma TwoOrganizationWords(a: string, b: string)
    requires IsWord(a) && IsWord(b)
    ensures OrganizationWords([a, b]) == [OrganizationWord(a), OrganizationWord(b)]
  {
  }

  /** A word whose capitals are a keyword is written in capitals. */
  lemma KeywordInCapitals(w: string, u: string)
    requires IsWord(w) && Upper(w) == u && u in OrganizationKeywords
    ensures OrganizationWord(w) == u
  {
  }

  /** Any other word is capitalised. */
  lemma OtherWordCapitalised(w: string, u: string, c: string)
    requires IsWord(w) && Upper(w) == u && u !in OrganizationKeywords && Capitalize(w) == c
    ensures OrganizationWord(w) == c
  {
  }

  // "rakoto jean paul" -> "RAKOTO Jean P."

  lemma LowerCaseExample()
    ensures FormatPersonName("rakoto jean paul") == "RAKOTO Jean P."
  {
    LetterWord("rakoto");
    LetterWord("jean");
    LetterWord("paul");
    LowerCaseJoin();
    ThreeWords("rakoto jean paul", "rakoto", "jean", "paul");
    LowerCaseTokens();
    PersonCase("rakoto jean paul", ["rakoto", "jean", "paul"], "RAKOTO Jean P.");
  }

  lemma LowerCaseJoin() ensures Join(["rakoto", "jean", "paul"], " ") == "rakoto jean paul" {}

  lemma LowerCaseTokens()
    ensures Join(PersonTokens(["rakoto", "jean", "paul"]), " ") == "RAKOTO Jean P."
  {
    LetterWord("rakoto");
    LetterWord("jean");
    LetterWord("paul");
    ThreeTokens("rakoto", "jean", "paul");
    LowerCaseUpper();
    LowerCaseCapitalize();
    LowerCaseResult();
  }

  lemma LowerCaseUpper() ensures Upper("rakoto") == "RAKOTO" {}
  lemma LowerCaseCapitalize() ensures Capitalize("jean") == "Jean" {
    CapitalizeSmall("jean");
  }
  lemma LowerCaseResult() ensures Join(["RAKOTO", "Jean", "P."], " ") == "RAKOTO Jean P." {}

  // "Rabearisoa Marie Monique" -> "RABEARISOA Marie M."

  lemma ThreeNamesExample()
    ensures FormatPersonName("Rabearisoa Marie Monique") == "RABEARISOA Marie M."
  {
    LetterWord("Rabearisoa");
    LetterWord("Marie");
    LetterWord("Monique");
    ThreeNamesJoin();
    ThreeWords("Rabearisoa Marie Monique", "Rabearisoa", "Marie", "Monique");
    ThreeNamesTokens();
    PersonCase("Rabearisoa Marie Monique", ["Rabearisoa", "Marie", "Monique"], "RABEARISOA Marie M.");
  }

  lemma ThreeNamesJoin() ensures Join(["Rabearisoa", "Marie", "Monique"], " ") == "Rabearisoa Marie Monique" {}

  lemma ThreeNamesTokens()
    ensures Join(PersonTokens(["Rabearisoa", "Marie", "Monique"]), " ") == "RABEARISOA Marie M."
  {
    LetterWord("Rabearisoa");
    LetterWord("Marie");
    LetterWord("Monique");
    ThreeTokens("Rabearisoa", "Marie", "Monique");
    ThreeNamesUpper();
    ThreeNamesCapitalize();
    ThreeNamesResult();
  }

  lemma ThreeNamesUpper() ensures Upper("Rabearisoa") == "RABEARISOA" {}
  lemma ThreeNamesCapitalize() ensures Capitalize("Marie") == "Marie" {
    CapitalizeSmall("Marie");
  }
  lemma ThreeNamesResult() ensures Join(["RABEARISOA", "Marie", "M."], " ") == "RABEARISOA Marie M." {}

  // "ANDRIA Michel" -> "ANDRIA Michel"

  lemma AlreadyFormattedExample()
    ensures FormatPersonName("ANDRIA Michel") == "ANDRIA Michel"
  {
    LetterWord("ANDRIA");
    LetterWord("Michel");
    AlreadyFormattedJoin();
    TwoWords("ANDRIA Michel", "ANDRIA", "Michel");
    TwoTokens("ANDRIA", "Michel");
    AlreadyFormattedUpper();
    AlreadyFormattedCapitalize();
    PersonCase("ANDRIA Michel", ["ANDRIA", "Michel"], "ANDRIA Michel");
  }

  lemma AlreadyFormattedJoin() ensures Join(["ANDRIA", "Michel"], " ") == "ANDRIA Michel" {}
  lemma AlreadyFormattedUpper() ensures Upper("ANDRIA") == "ANDRIA" {}
  lemma AlreadyFormattedCapitalize() ensures Capitalize("Michel") == "Michel" {
    CapitalizeSmall("Michel");
  }

  // "EPP Ambohipo" -> "EPP Ambohipo"

  lemma KeywordKeptExample()
    ensures FormatOrganizationName("EPP Ambohipo") == "EPP Ambohipo"
  {
    LetterWord("EPP");
    LetterWord("Ambohipo");
    KeywordKeptJoin();
    TwoWords("EPP Ambohipo", "EPP", "Ambohipo");
    KeywordKeptWords();
    OrganizationCase("EPP Ambohipo", ["EPP", "Ambohipo"], "EPP Ambohipo");
  }

  lemma KeywordKeptJoin() ensures Join(["EPP", "Ambohipo"], " ") == "EPP Ambohipo" {}

  lemma KeywordKeptWords()
    ensures Join(OrganizationWords(["EPP", "Ambohipo"]), " ") == "EPP Ambohipo"
  {
    LetterWord("EPP");
    LetterWord("Ambohipo");
    TwoOrganizationWords("EPP", "Ambohipo");
    KeywordKeptUpper();
    KeywordKeptKeyword();
    KeywordInCapitals("EPP", "EPP");
    KeywordKeptOtherUpper();
    KeywordKeptNotKeyword();
    KeywordKeptCapitalize();
    OtherWordCapitalised("Ambohipo", "AMBOHIPO", "Ambohipo");
    KeywordKeptJoin();
  }

  lemma KeywordKeptUpper() ensures Upper("EPP") == "EPP" {}
  lemma KeywordKeptKeyword() ensures "EPP" in OrganizationKeywords {}
  lemma KeywordKeptOtherUpper() ensures Upper("Ambohipo") == "AMBOHIPO" {}
  lemma KeywordKeptNotKeyword() ensures "AMBOHIPO" !in OrganizationKeywords {}
  lemma KeywordKeptCapitalize() ensures Capitalize("Ambohipo") == "Ambohipo" {
    CapitalizeSmall("Ambohipo");
  }

  // "lycee technique" -> "LYCEE Technique": "LYCEE" is a keyword and so stays
  // in capitals, where the documentation shows "Lycée Technique".

  lemma KeywordCapitalisedExample()
    ensures FormatOrganizationName("lycee technique") == "LYCEE Technique"
  {
    LetterWord("lycee");
    LetterWord("technique");
    KeywordCapitalisedJoin();
    TwoWords("lycee technique", "lycee", "technique");
    KeywordCapitalisedWords();
    OrganizationCase("lycee technique", ["lycee", "technique"], "LYCEE Technique");
  }

  lemma KeywordCapitalisedJoin() ensures Join(["lycee", "technique"], " ") == "lycee technique" {}

  lemma KeywordCapitalisedWords()
    ensures Join(OrganizationWords(["lycee", "technique"]), " ") == "LYCEE Technique"
  {
    LetterWord("lycee");
    LetterWord("technique");
    TwoOrganizationWords("lycee", "technique");
    KeywordCapitalisedUpper();
    KeywordCapitalisedKeyword();
    KeywordInCapitals("lycee", "LYCEE");
    KeywordCapitalisedOtherUpper();
    KeywordCapitalisedNotKeyword();
    KeywordCapitalisedCapitalize();
    OtherWordCapitalised("technique", "TECHNIQUE", "Technique");
    KeywordCapitalisedResult();
  }

  lemma KeywordCapitalisedUpper() ensures Upper("lycee") == "LYCEE" {}
  lemma KeywordCapitalisedKeyword() ensures "LYCEE" in OrganizationKeywords {}
  lemma KeywordCapitalisedOtherUpper() ensures Upper("technique") == "TECHNIQUE" {}
  lemma KeywordCapitalisedNotKeyword() ensures "TECHNIQUE" !in OrganizationKeywords {}
  lemma KeywordCapitalisedCapitalize() ensures Capitalize("technique") == "Technique" {
    CapitalizeSmall("technique");
  }
  lemma KeywordCapitalisedResult() ensures Join(["LYCEE", "Technique"], " ") == "LYCEE Technique" {}
}

=== FILE: name_formatter.dfy ===
/**
 Client-name normalisation. A name containing one of the organisation
 keywords (anywhere, case-insensitively) is an organisation and is title-cased
 word by word with the keywords kept in capitals; any other name is a person
 and becomes `SURNAME Firstname I.` (surname in capitals, first given name
 capitalised, further given names reduced to an initial and a period).
 Empty and whitespace-only names are returned unchanged.
 */
module NameFormatter {
  import opened Text

  /** The organisation keywords, in the order the classifier tries them. */
  const OrganizationKeywords: seq<string> := [
    "EPP", "CEG", "LYCEE", "LYC\U{C9}E", "COLLEGE", "COLL\U{C8}GE",
    "ECOLE", "\U{C9}COLE", "UNIVERSITE", "UNIVERSIT\U{C9}",
    "ASSOCIATION", "ONG", "SARL", "SA", "EURL",
    "SOCIETE", "SOCI\U{C9}T\U{C9}", "ENTREPRISE", "MAGASIN",
    "BOUTIQUE", "CENTRE", "INSTITUT", "CABINET",
    "HOPITAL", "H\U{D4}PITAL", "CLINIQUE", "PHARMACIE",
    "\U{C9}GLISE", "EGLISE", "TEMPLE", "MOSQU\U{C9}E", "MOSQUEE"
  ]

  /** Some keyword of `kws` occurs in `upper`, trying them in order. */
  predicate AnyKeywordIn(upper: string, kws: seq<string>)
    ensures AnyKeywordIn(upper, kws) <==> exists k :: 0 <= k < |kws| && Contains(upper, kws[k])
  {
    if kws == [] then false
    else if Contains(upper, kws[0]) then true
    else
      assert forall k :: 1 <= k < |kws| ==> kws[1..][k - 1] == kws[k];
      AnyKeywordIn(upper, kws[1..])
  }

  /** Whether `name` is classified as an organisation. */
  predicate IsOrganization(name: string)
    ensures IsOrganization(name) <==>
      exists k :: 0 <= k < |OrganizationKeywords| && Contains(Upper(name), OrganizationKeywords[k])
  {
    AnyKeywordIn(Upper(name), OrganizationKeywords)
  }

  /** The classification ignores case. */
  lemma IsOrganizationIgnoresCase(name: string)
    ensures IsOrganization(Lower(name)) <==> IsOrganization(name)
    ensures IsOrganization(Upper(name)) <==> IsOrganization(name)
  {
    UpperIgnoresLower(name);
    UpperIdempotent(name);
  }

  // ---------------------------------------------------------------------
  // Persons
  // ---------------------------------------------------------------------

  /** A given name after the first, reduced to its upper-cased initial and a period. */
  function Initial(w: string): (r: string)
    requires IsWord(w)
    ensures IsWord(r)
  {
    assert !IsSpace('.');
    [UpperChar(w[0]), '.']
  }

  function Initials(ws: seq<string>): (r: seq<string>)
    requires forall k :: 0 <= k < |ws| ==> IsWord(ws[k])
    ensures |r| == |ws|
    ensures forall k :: 0 <= k < |r| ==> r[k] == Initial(ws[k]) && IsWord(r[k])
  {
    seq(|ws|, i requires 0 <= i < |ws| => Initial(ws[i]))
  }

  /** The tokens of a person's name after formatting. */
  function PersonTokens(parts: seq<string>): (r: seq<string>)
    requires forall k :: 0 <= k < |parts| ==> IsWord(parts[k])
    ensures |r| == |parts|
    ensures forall k :: 0 <= k < |r| ==> IsWord(r[k])
  {
    if parts == [] then []
    else
      CaseKeepsWord(parts[0]);
      if |parts| == 1 then [Upper(parts[0])]
      else
        CaseKeepsWord(parts[1]);
        [Upper(parts[0]), Capitalize(parts[1])] + Initials(parts[2..])
  }

  /** A single-space join of tokens splits back into them and is already stripped. */
  lemma JoinedWords(tokens: seq<string>)
    requires |tokens| > 0
    requires forall k :: 0 <= k < |tokens| ==> IsWord(tokens[k])
    ensures Words(Join(tokens, " ")) == tokens
    ensures Strip(Join(tokens, " ")) == Join(tokens, " ")
  {
    WordsOfJoin(tokens);
    JoinOfWordsIsStripped(tokens);
  }

  /** The facts `FormatPersonName` rests on: the stripped name splits into the
      same words as the name, and the joined tokens split back into themselves. */
  lemma PersonJoin(name: string)
    requires !AllSpace(name)
    ensures var parts := Words(Strip(name));
      && parts == Words(name) && parts != []
      && Words(Join(PersonTokens(parts), " ")) == PersonTokens(parts)
      && Strip(Join(PersonTokens(parts), " ")) == Join(PersonTokens(parts), " ")
  {
    WordsStrip(name);
    JoinedWords(PersonTokens(Words(name)));
  }

  /** `format_person_name`. */
  function FormatPersonName(name: string): (r: string)
    ensures AllSpace(name) ==> r == name
    ensures !AllSpace(name) ==>
      var ws := Words(name);
      && Words(r) == PersonTokens(ws)
      && Strip(r) == r
  {
    if AllSpace(name) then name
    else
      var parts := Words(Strip(name));
      PersonJoin(name);
      if parts == [] then name
      else Join(PersonTokens(parts), " ")
  }

  /** The person format, token by token: surname in capitals, first given name
      capitalised, every later given name an initial and a period; the
      number of tokens is kept and they are separated by single spaces. */
  lemma PersonNameShape(name: string)
    requires !AllSpace(name)
    ensures var ws := Words(name); var rs := Words(FormatPersonName(name));
      && |rs| == |ws|
      && rs[0] == Upper(ws[0])
      && (|ws| >= 2 ==> rs[1] == Capitalize(ws[1]))
      && (forall k :: 2 <= k < |ws| ==> rs[k] == [UpperChar(ws[k][0]), '.'])
      && FormatPersonName(name) == Join(rs, " ")
  {
    var ws := Words(name);
    PersonJoin(name);
    assert FormatPersonName(name) == Join(PersonTokens(ws), " ");
    PersonTokensShape(ws);
  }

  /** The tokens one by one. */
  lemma PersonTokensShape(ws: seq<string>)
    requires ws != []
    requires forall k :: 0 <= k < |ws| ==> IsWord(ws[k])
    ensures var rs := PersonTokens(ws);
      && rs[0] == Upper(ws[0])
      && (|ws| >= 2 ==> rs[1] == Capitalize(ws[1]))
      && (forall k :: 2 <= k < |ws| ==> rs[k] == [UpperChar(ws[k][0]), '.'])
  {
    var rs := PersonTokens(ws);
    if |ws| >= 2 {
      var ini := Initials(ws[2..]);
      assert rs == [Upper(ws[0]), Capitalize(ws[1])] + ini;
      forall k | 2 <= k < |ws|
        ensures rs[k] == [UpperChar(ws[k][0]), '.']
      {
        assert rs[k] == ini[k - 2] == Initial(ws[2..][k - 2]);
      }
    }
  }

  lemma {:induction false} PersonTokensIdempotent(parts: seq<string>)
    requires forall k :: 0 <= k < |parts| ==> IsWord(parts[k])
    ensures PersonTokens(PersonTokens(parts)) == PersonTokens(parts)
  {
    if parts != [] {
      var once := PersonTokens(parts);
      var twice := PersonTokens(once);
      UpperIdempotent(parts[0]);
      if |parts| >= 2 {
        CapitalizeIdempotent(parts[1]);
        assert twice[1] == once[1];
      }
      forall k | 2 <= k < |parts|
        ensures twice[k] == once[k]
      {
        assert once[k] == Initial(parts[k]);
        assert twice[k] == Initial(once[k]);
      }
      assert twice == once;
    }
  }

  /** Formatting a person's name twice gives the same result as once. */
  lemma FormatPersonNameIdempotent(name: string)
    ensures FormatPersonName(FormatPersonName(name)) == FormatPersonName(name)
  {
    if !AllSpace(name) {
      var r := FormatPersonName(name);
      var ws := Words(name);
      assert Words(r) == PersonTokens(ws);
      assert !AllSpace(r);
      PersonTokensIdempotent(ws);
      PersonNameShape(name);
      PersonNameShape(r);
    }
  }

  // ---------------------------------------------------------------------
  // Organisations
  // ---------------------------------------------------------------------

  /** One word of an organisation name: a keyword in capitals, anything else capitalised. */
  function OrganizationWord(w: string): (r: string)
    requires IsWord(w)
    ensures IsWord(r)
  {
    if Upper(w) in OrganizationKeywords then Upper(w) else Capitalize(w)
  }

  function OrganizationWords(ws: seq<string>): (r: seq<string>)
    requires forall k :: 0 <= k < |ws| ==> IsWord(ws[k])
    ensures |r| == |ws|
    ensures forall k :: 0 <= k < |r| ==> IsWord(r[k])
  {
    seq(|ws|, i requires 0 <= i < |ws| => OrganizationWord(ws[i]))
  }

  /** `format_organization_name`: whitespace runs collapsed, then word by word. */
  function FormatOrganizationName(name: string): (r: string)
    ensures AllSpace(name) ==> r == name
    ensures !AllSpace(name) ==>
      && Words(r) == OrganizationWords(Words(name))
      && Strip(r) == r
  {
    if AllSpace(name) then name
    else
      var cleaned := Join(Words(name), " ");
      var words := Words(cleaned);
      assert words == Words(name) by { WordsOfJoin(Words(name)); }
      var formatted := OrganizationWords(words);
      assert Words(Join(formatted, " ")) == formatted && Strip(Join(formatted, " ")) == Join(formatted, " ") by {
        JoinedWords(formatted);
      }
      Join(formatted, " ")
  }

  /** Every word of an organisation name is upper-cased when its capitals form
      a keyword and capitalised otherwise; words are separated by single spaces. */
  lemma OrganizationNameShape(name: string)
    requires !AllSpace(name)
    ensures var ws := Words(name); var rs := Words(FormatOrganizationName(name));
      && |rs| == |ws|
      && (forall k :: 0 <= k < |ws| ==>
            (Upper(ws[k]) in OrganizationKeywords ==> rs[k] == Upper(ws[k]))
            && (Upper(ws[k]) !in OrganizationKeywords ==> rs[k] == Capitalize(ws[k])))
      && FormatOrganizationName(name) == Join(rs, " ")
  {
    var ws := Words(name);
    var rs := OrganizationWords(ws);
    WordsOfJoin(ws);
    assert FormatOrganizationName(name) == Join(rs, " ");
    forall k | 0 <= k < |ws|
      ensures rs[k] == OrganizationWord(ws[k])
    {
    }
  }

  // ---------------------------------------------------------------------
  // Entry point
  // ---------------------------------------------------------------------

  /** `format_client_name`: a blank name comes back as it was; otherwise the
      stripped name is classified and its words formatted accordingly. */
  function FormatClientName(name: string): (r: string)
    ensures AllSpace(name) ==> r == name
    ensures !AllSpace(name) && IsOrganization(Strip(name)) ==>
      r == Join(OrganizationWords(Words(name)), " ") && Words(r) == OrganizationWords(Words(name)) && Strip(r) == r
    ensures !AllSpace(name) && !IsOrganization(Strip(name)) ==>
      r == Join(PersonTokens(Words(name)), " ") && Words(r) == PersonTokens(Words(name)) && Strip(r) == r
  {
    if AllSpace(name) then name
    else
      var s := Strip(name);
      StrippedWords(name);
      if IsOrganization(s) then
        OrganizationOfWords(s);
        FormatOrganizationName(s)
      else
        PersonOfWords(s);
        FormatPersonName(s)
  }

  /** The stripped name is not blank and has the name's words. */
  lemma StrippedWords(name: string)
    requires !AllSpace(name)
    ensures !AllSpace(Strip(name)) && Words(Strip(name)) == Words(name)
  {
    WordsStrip(name);
  }

  // ---------------------------------------------------------------------
  // Worked examples
  // ---------------------------------------------------------------------

  /** A non-blank name is its formatted words joined by single spaces. */
  lemma PersonOfWords(name: string)
    requires !AllSpace(name)
    ensures FormatPersonName(name) == Join(PersonTokens(Words(name)), " ")
  {
    PersonJoin(name);
  }

  /** The words of a name written with single spaces. */
  lemma SpacedWords(name: string, ws: seq<string>)
    requires ws != [] && forall k :: 0 <= k < |ws| ==> IsWord(ws[k])
    requires name == Join(ws, " ")
    ensures Words(name) == ws && !AllSpace(name)
  {
    WordsOfJoin(ws);
  }

  /** A non-blank organisation name is its formatted words joined by single spaces. */
  lemma OrganizationOfWords(name: string)
    requires !AllSpace(name)
    ensures FormatOrganizationName(name) == Join(OrganizationWords(Words(name)), " ")
  {
    WordsOfJoin(Words(name));
  }
}

=== FILE: numerals.dfy ===
/**
 Integer rendering and parsing as the receipt code uses it: `str(n)`,
 `int(s)`, the zero-padded `{n:05d}` of receipt numbers and the grouped
 `{x:,.0f}` of amounts (applied here to whole numbers).
 */
module Numerals {
  import opened Wrappers
  import Text

  predicate IsDigit(c: char) {
    '0' <= c <= '9'
  }

  predicate AllDigits(s: string) {
    forall i :: 0 <= i < |s| ==> IsDigit(s[i])
  }

  function DigitChar(d: nat): (c: char)
    requires d < 10
    ensures IsDigit(c) && DigitValue(c) == d
  {
    ('0' as int + d) as char
  }

  function DigitValue(c: char): nat
    requires IsDigit(c)
  {
    c as int - '0' as int
  }

  function Pow10(k: nat): nat {
    if k == 0 then 1 else 10 * Pow10(k - 1)
  }

  /** Decimal digits of `n`, most significant first, without leading zeros. */
  function Decimal(n: nat): (s: string)
    ensures s != [] && AllDigits(s)
    ensures |s| > 1 ==> s[0] != '0'
    decreases n
  {
    if n < 10 then [DigitChar(n)] else Decimal(n / 10) + [DigitChar(n % 10)]
  }

  /** The value of a string of decimal digits (leading zeros allowed). */
  function DigitsValue(s: string): nat
    requires AllDigits(s)
  {
    if s == [] then 0 else DigitsValue(s[..|s| - 1]) * 10 + DigitValue(s[|s| - 1])
  }

  lemma {:induction false} DecimalRoundTrip(n: nat)
    ensures DigitsValue(Decimal(n)) == n
    decreases n
  {
    if n >= 10 {
      var s := Decimal(n);
      assert s[..|s| - 1] == Decimal(n / 10);
      DecimalRoundTrip(n / 10);
    }
  }

  lemma {:induction false} DigitsValueAppend(a: string, b: string)
    requires AllDigits(a) && AllDigits(b)
    ensures AllDigits(a + b)
    ensures DigitsValue(a + b) == DigitsValue(a) * Pow10(|b|) + DigitsValue(b)
    decreases |b|
  {
    var ab := a + b;
    assert AllDigits(ab) by {
      forall i | 0 <= i < |ab| ensures IsDigit(ab[i]) {
        if i < |a| { assert ab[i] == a[i]; } else { assert ab[i] == b[i - |a|]; }
      }
    }
    if b == [] {
      assert ab == a;
    } else {
      var b' := b[..|b| - 1];
      var last := b[|b| - 1];
      assert ab[..|ab| - 1] == a + b';
      assert ab[|ab| - 1] == last;
      DigitsValueAppend(a, b');
      assert DigitsValue(ab) == DigitsValue(a + b') * 10 + DigitValue(last);
      assert DigitsValue(b) == DigitsValue(b') * 10 + DigitValue(last);
      ShiftDigit(DigitsValue(a), Pow10(|b'|), DigitsValue(b'), DigitValue(last));
    }
  }

  lemma ShiftDigit(x: int, p: int, y: int, d: int)
    ensures (x * p + y) * 10 + d == x * (p * 10) + (y * 10 + d)
  {
  }

  /** `s` left-padded with '0' to at least `width` characters. */
  function PadZeros(s: string, width: nat): (r: string)
    ensures |r| == if |s| >= width then |s| else width
    ensures r == Text.Repeat('0', |r| - |s|) + s
  {
    Text.Repeat('0', if |s| >= width then 0 else width - |s|) + s
  }

  lemma {:induction false} ZerosValue(k: nat)
    ensures AllDigits(Text.Repeat('0', k)) && DigitsValue(Text.Repeat('0', k)) == 0
    decreases k
  {
    if k > 0 {
      assert Text.Repeat('0', k)[..k - 1] == Text.Repeat('0', k - 1);
      ZerosValue(k - 1);
    }
  }

  /** Zero-padding keeps the value of a digit string. */
  lemma PadZerosValue(s: string, width: nat)
    requires AllDigits(s)
    ensures AllDigits(PadZeros(s, width))
    ensures DigitsValue(PadZeros(s, width)) == DigitsValue(s)
  {
    var z := Text.Repeat('0', |PadZeros(s, width)| - |s|);
    ZerosValue(|z|);
    DigitsValueAppend(z, s);
  }

  /** `str(n)`. */
  function IntToString(n: int): string {
    if n < 0 then "-" + Decimal(-n) else Decimal(n)
  }

  /** Python's `int(s)` on ASCII input: surrounding whitespace, an optional
      sign, then one or more decimal digits; anything else raises (`None`). */
  function ParseInt(s: string): Option<int> {
    ParseSigned(Text.Strip(s))
  }

  /** `int` on an already stripped string. */
  function ParseSigned(t: string): Option<int> {
    if t != [] && (t[0] == '-' || t[0] == '+') then
      var d := t[1..];
      if d != [] && AllDigits(d) then
        var v: int := DigitsValue(d);
        Some(if t[0] == '-' then -v else v)
      else None
    else if t != [] && AllDigits(t) then Some(DigitsValue(t))
    else None
  }

  /** Digits alone are read back as their value. */
  lemma ParseDigits(d: string)
    requires d != [] && AllDigits(d)
    ensures ParseInt(d) == Some(DigitsValue(d))
  {
    assert IsDigit(d[0]) && IsDigit(d[|d| - 1]);
    Text.StripKeeps(d);
    assert ParseInt(d) == ParseSigned(d);
  }

  /** A minus sign followed by digits is read back as the negated value. */
  lemma ParseNegative(s: string)
    requires |s| >= 2 && s[0] == '-' && AllDigits(s[1..])
    ensures ParseInt(s) == Some(-(DigitsValue(s[1..]) as int))
  {
    assert IsDigit(s[1..][|s| - 2]);
    Text.StripKeeps(s);
  }

  /** `int(str(n)) == n`. */
  lemma ParseIntToString(n: int)
    ensures ParseInt(IntToString(n)) == Some(n)
  {
    if n < 0 {
      ParseIntToStringNegative(n);
    } else {
      DecimalRoundTrip(n);
      ParseDigits(Decimal(n));
    }
  }

  lemma ParseIntToStringNegative(n: int)
    requires n < 0
    ensures ParseInt(IntToString(n)) == Some(n)
  {
    var s := IntToString(n);
    DecimalRoundTrip(-n);
    assert s[1..] == Decimal(-n);
    assert DigitsValue(s[1..]) == -n;
    ParseNegative(s);
  }

  /** `f"{n:05d}"`: the sign counts towards the width of five. */
  function ZeroPad5(n: int): (r: string)
    ensures |r| >= 5
    ensures n >= 0 ==> AllDigits(r)
    ensures n < 0 ==> r[0] == '-' && AllDigits(r[1..])
  {
    if n >= 0 then PadZeros(Decimal(n), 5) else "-" + PadZeros(Decimal(-n), 4)
  }

  /** Reading a zero-padded number back with `int()` gives the number. */
  lemma ParseZeroPad5(n: int)
    ensures ParseInt(ZeroPad5(n)) == Some(n)
  {
    if n >= 0 {
      ParseZeroPad5NonNegative(n);
    } else {
      ParseZeroPad5Negative(n);
    }
  }

  lemma ParseZeroPad5NonNegative(n: int)
    requires n >= 0
    ensures ParseInt(ZeroPad5(n)) == Some(n)
  {
    var p := PadZeros(Decimal(n), 5);
    PaddedDigits(n, 5);
    ParseDigits(p);
  }

  lemma ParseZeroPad5Negative(n: int)
    requires n < 0
    ensures ParseInt(ZeroPad5(n)) == Some(n)
  {
    var p := PadZeros(Decimal(-n), 4);
    PaddedDigits(-n, 4);
    var s := ZeroPad5(n);
    assert s[1..] == p;
    assert DigitsValue(s[1..]) == -n;
    ParseNegative(s);
  }

  lemma PaddedDigits(n: nat, width: nat)
    ensures var p := PadZeros(Decimal(n), width); p != [] && AllDigits(p) && DigitsValue(p) == n
  {
    PadZerosValue(Decimal(n), width);
    DecimalRoundTrip(n);
  }

  /** `f"{n:,.0f}"` for a whole number `n >= 0`: digits in groups of three separated by ','. */
  function Grouped(n: nat): (s: string)
    ensures s != []
    decreases n
  {
    if n < 1000 then Decimal(n) else Grouped(n / 1000) + "," + PadZeros(Decimal(n % 1000), 3)
  }

  /** `f"{x:,.0f}"` for a whole number `x`. */
  function FormatAmount(x: int): string {
    if x < 0 then "-" + Grouped(-x) else Grouped(x)
  }

  /** `s` with every ',' removed. */
  function DropCommas(s: string): string {
    if s == [] then [] else (if s[0] == ',' then [] else [s[0]]) + DropCommas(s[1..])
  }

  lemma {:induction false} DropCommasAppend(a: string, b: string)
    ensures DropCommas(a + b) == DropCommas(a) + DropCommas(b)
    decreases |a|
  {
    if a != [] {
      assert (a + b)[1..] == a[1..] + b;
      DropCommasAppend(a[1..], b);
    } else {
      assert a + b == b;
    }
  }

  lemma {:induction false} DropCommasOfDigits(s: string)
    requires AllDigits(s)
    ensures DropCommas(s) == s
    decreases |s|
  {
    if s != [] {
      DropCommasOfDigits(s[1..]);
    }
  }

  /** Grouping is only presentation: removing the separators leaves the
      digits of `n`. */
  lemma {:induction false} GroupedValue(n: nat)
    ensures AllDigits(DropCommas(Grouped(n)))
    ensures DigitsValue(DropCommas(Grouped(n))) == n
    decreases n
  {
    if n < 1000 {
      DropCommasOfDigits(Decimal(n));
      DecimalRoundTrip(n);
    } else {
      GroupedValue(n / 1000);
      GroupedStep(n);
    }
  }

  lemma GroupedStep(n: nat)
    requires n >= 1000
    requires AllDigits(DropCommas(Grouped(n / 1000)))
    requires DigitsValue(DropCommas(Grouped(n / 1000))) == n / 1000
    ensures AllDigits(DropCommas(Grouped(n)))
    ensures DigitsValue(DropCommas(Grouped(n))) == n
  {
    var d := DropCommas(Grouped(n / 1000));
    var lo := PadZeros(Decimal(n % 1000), 3);
    LowGroup(n % 1000);
    GroupedSplit(n);
    DigitsValueAppend(d, lo);
    assert Pow10(3) == 1000;
  }

  /** The three-digit group of a number below 1000. */
  lemma LowGroup(m: nat)
    requires m < 1000
    ensures var lo := PadZeros(Decimal(m), 3); |lo| == 3 && AllDigits(lo) && DigitsValue(lo) == m
  {
    DecimalLength(m);
    PaddedDigits(m, 3);
  }

  lemma GroupedSplit(n: nat)
    requires n >= 1000
    requires AllDigits(PadZeros(Decimal(n % 1000), 3))
    ensures DropCommas(Grouped(n)) == DropCommas(Grouped(n / 1000)) + PadZeros(Decimal(n % 1000), 3)
  {
    var hi := Grouped(n / 1000);
    var lo := PadZeros(Decimal(n % 1000), 3);
    assert Grouped(n) == hi + ("," + lo);
    DropCommasJoin(hi, lo);
  }

  lemma DropCommasJoin(hi: string, lo: string)
    requires AllDigits(lo)
    ensures DropCommas(hi + ("," + lo)) == DropCommas(hi) + lo
  {
    DropCommasAppend(hi, "," + lo);
    DropCommasLeadingComma(lo);
  }

  lemma DropCommasLeadingComma(lo: string)
    requires AllDigits(lo)
    ensures DropCommas("," + lo) == lo
  {
    assert ("," + lo)[1..] == lo;
    DropCommasOfDigits(lo);
  }

  lemma {:induction false} DecimalLength(n: nat)
    ensures n < 1000 ==> |Decimal(n)| <= 3
  {
    if n >= 10 && n < 1000 {
      assert |Decimal(n / 10)| == 1 || (n / 10 >= 10 && |Decimal(n / 10)| == 2) by {
        if n / 10 >= 10 {
          assert n / 100 < 10;
        }
      }
    }
  }
}

=== FILE: receipt_controller.dfy ===
/**
 The receipt being entered and the three ways of finishing it.

 The state is the list of items entered so far and the store. Adding an item
 validates it, appends it and records the product. Removing takes an item out
 by position. Each finishing operation refuses an empty list, then builds the
 receipt from the next receipt number, today's date and the items, and saves
 it. It then produces the output: a PDF, a thermal print or a laser print.
 Whether the output succeeded is a parameter. So is today's date, as the
 `%Y-%m-%d` text the controller stores.

 After a successful save, the PDF path clears the items only when the PDF was
 produced. The two print paths clear them whether or not the print succeeded,
 because the receipt is already saved. A failed save leaves the items in place.
 */
module ReceiptController {
  import opened Wrappers
  import opened Receipts
  import Database

  datatype State = State(items: seq<Item>, db: Database.Db)

  // ---------------------------------------------------------------------
  // The item list
  // ---------------------------------------------------------------------

  /** The input `add_item` accepts: a non-empty name and positive quantity and price. */
  predicate ValidInput(name: string, quantity: int, unitPrice: int) {
    name != "" && quantity > 0 && unitPrice > 0
  }

  /** What `add_item` returns: the new item on success, and the new state. */
  datatype Added = Added(ok: bool, item: Option<Item>, state: State)

  /** `add_item`. */
  function AddItem(st: State, name: string, quantity: int, unitPrice: int): (r: Added)
    ensures r.ok <==> ValidInput(name, quantity, unitPrice)
    ensures r.ok <==> r.item.Some?
    ensures !r.ok ==> r.state == st
    ensures r.ok ==> r.item == Some(Item(name, quantity, unitPrice, quantity * unitPrice))
    ensures r.ok ==> r.state.items == st.items + [r.item.value]
    ensures r.ok ==> r.state.db == Database.AddOrUpdateProduct(st.db, name, unitPrice)
  {
    if !ValidInput(name, quantity, unitPrice) then Added(false, None, st)
    else
      var item := Item(name, quantity, unitPrice, quantity * unitPrice);
      Added(true, Some(item), State(st.items + [item], Database.AddOrUpdateProduct(st.db, name, unitPrice)))
  }

  /** `get_current_total`. */
  function CurrentTotal(st: State): int {
    ItemsTotal(st.items)
  }

  /** `clear_current_items`. */
  function Clear(st: State): (r: State)
    ensures r.items == [] && CurrentTotal(r) == 0 && r.db == st.db
  {
    st.(items := [])
  }

  /** What `remove_item` returns: the removed item on success, and the new state. */
  datatype Removed = Removed(ok: bool, item: Option<Item>, state: State)

  /** `remove_item`. */
  function RemoveItem(st: State, index: int): (r: Removed)
    ensures r.ok <==> 0 <= index < |st.items|
    ensures !r.ok ==> r == Removed(false, None, st)
    ensures r.ok ==> r.item == Some(st.items[index]) && r.state.db == st.db
    ensures r.ok ==> |r.state.items| == |st.items| - 1
  {
    if 0 <= index < |st.items| then
      Removed(true, Some(st.items[index]), st.(items := st.items[..index] + st.items[index + 1..]))
    else Removed(false, None, st)
  }

  /** Removing keeps the other items in their order: those before the index
      stay where they were, those after move up by one. */
  lemma RemoveKeepsOrder(st: State, index: int)
    requires 0 <= index < |st.items|
    ensures var after := RemoveItem(st, index).state.items;
      && (forall j :: 0 <= j < index ==> after[j] == st.items[j])
      && (forall j :: index <= j < |after| ==> after[j] == st.items[j + 1])
  {
  }

  /** The removed item and the remaining ones are the items before removal. */
  lemma RemoveIsPermutation(st: State, index: int)
    requires 0 <= index < |st.items|
    ensures var r := RemoveItem(st, index);
      multiset(r.state.items) + multiset{r.item.value} == multiset(st.items)
  {
    var items := st.items;
    assert items == items[..index] + [items[index]] + items[index + 1..];
  }

  /** Adding a valid item raises the total by quantity times price and records one more use of the product. */
  lemma AddItemTotal(st: State, name: string, quantity: int, unitPrice: int)
    requires ValidInput(name, quantity, unitPrice)
    ensures CurrentTotal(AddItem(st, name, quantity, unitPrice).state) == CurrentTotal(st) + quantity * unitPrice
    ensures Database.Uses(AddItem(st, name, quantity, unitPrice).state.db, name) == Database.Uses(st.db, name) + 1
    ensures forall j :: 0 <= j < |st.items| ==> AddItem(st, name, quantity, unitPrice).state.items[j] == st.items[j]
  {
    ItemsTotalAppend(st.items, AddItem(st, name, quantity, unitPrice).item.value);
  }

  /** Removing an item lowers the total by that item's total. */
  lemma RemoveItemTotal(st: State, index: int)
    requires 0 <= index < |st.items|
    ensures CurrentTotal(RemoveItem(st, index).state) == CurrentTotal(st) - st.items[index].total
  {
    var items := st.items;
    var before, after := items[..index], items[index + 1..];
    assert items == (before + [items[index]]) + after;
    ItemsTotalConcat(before + [items[index]], after);
    ItemsTotalAppend(before, items[index]);
    ItemsTotalConcat(before, after);
  }

  /** Removing the item just added gives back the list as it was. */
  lemma AddThenRemove(st: State, name: string, quantity: int, unitPrice: int)
    requires ValidInput(name, quantity, unitPrice)
    ensures var added := AddItem(st, name, quantity, unitPrice).state;
      RemoveItem(added, |st.items|).state.items == st.items
  {
    var added := AddItem(st, name, quantity, unitPrice).state;
    assert added.items[..|st.items|] == st.items;
    assert added.items[|st.items| + 1..] == [];
  }

  // ---------------------------------------------------------------------
  // Finishing a receipt
  // ---------------------------------------------------------------------

  /** The keyword arguments of the three finishing operations. */
  datatype Details = Details(clientName: string, clientPhone: string, paymentMethod: string, notes: string)

  /** The receipt dictionary built from the current items. */
  function BuildReceipt(st: State, number: string, today: string, d: Details): (r: ReceiptData)
    ensures r.items == st.items && r.total == CurrentTotal(st)
  {
    ReceiptData(number, today, Some(d.clientName), Some(d.clientPhone), st.items, CurrentTotal(st),
      Some(d.paymentMethod), Some(d.notes))
  }

  /** The common first half of the three operations: nothing to save, the
      counter unreadable (`get_next_receipt_number` raises outside the
      `try`, so the exception reaches the caller), the save failed, or the
      receipt saved. */
  datatype Prepared =
    | NothingToSave
    | CounterUnreadable
    | SaveFailed(db: Database.Db, receipt: ReceiptData, error: Database.SaveError)
    | SavedOk(db: Database.Db, receipt: ReceiptData)

  function SaveCurrent(st: State, today: string, d: Details): (p: Prepared)
    ensures p.NothingToSave? <==> st.items == []
    ensures p.CounterUnreadable? <==> st.items != [] && Database.Counter(st.db).None?
  {
    if st.items == [] then NothingToSave
    else
      match Database.NextReceiptNumber(st.db)
      case None => CounterUnreadable
      case Some(number) =>
        var receipt := BuildReceipt(st, number, today, d);
        var saved := Database.SaveReceipt(st.db, receipt);
        match saved.error
        case Some(e) => SaveFailed(saved.db, receipt, e)
        case None => SavedOk(saved.db, receipt)
  }

  /** How a finishing operation ended: `Raised` is an exception reaching the caller. */
  datatype Status = Succeeded | Failed | Raised

  datatype Finished = Finished(status: Status, state: State)

  /** The outcome when the save did not happen. */
  function NotSaved(st: State, p: Prepared): (r: Finished)
    requires !p.SavedOk?
  {
    match p
    case NothingToSave => Finished(Failed, st)
    case CounterUnreadable => Finished(Raised, st)
    case SaveFailed(db, _, _) => Finished(Failed, st.(db := db))
  }

  /** `save_and_generate_receipt`, where `pdfOk` says whether the PDF was produced. */
  function SaveAndGenerate(st: State, today: string, d: Details, pdfOk: bool): (r: Finished)
    ensures r.status == Succeeded <==> SaveCurrent(st, today, d).SavedOk? && pdfOk
    ensures r.status == Raised <==> SaveCurrent(st, today, d).CounterUnreadable?
    ensures r.status == Succeeded ==> r.state.items == []
    ensures r.status != Succeeded ==> r.state.items == st.items
    ensures SaveCurrent(st, today, d).SavedOk? ==> r.state.db == SaveCurrent(st, today, d).db
    ensures !SaveCurrent(st, today, d).SavedOk? ==> r.state == st
  {
    var p := SaveCurrent(st, today, d);
    FailedSaveKeepsStore(st, today, d);
    if !p.SavedOk? then NotSaved(st, p)
    else if pdfOk then Finished(Succeeded, Clear(st.(db := p.db)))
    else Finished(Failed, st.(db := p.db))
  }

  /** The two print paths: after a successful save the items are cleared
      whether or not the print succeeded. */
  function SaveAndPrint(st: State, today: string, d: Details, printOk: bool): (r: Finished)
    ensures r.status == Succeeded <==> SaveCurrent(st, today, d).SavedOk? && printOk
    ensures r.status == Raised <==> SaveCurrent(st, today, d).CounterUnreadable?
    ensures SaveCurrent(st, today, d).SavedOk? ==> r.state.items == []
    ensures !SaveCurrent(st, today, d).SavedOk? ==> r.state.items == st.items
    ensures SaveCurrent(st, today, d).SavedOk? ==> r.state.db == SaveCurrent(st, today, d).db
    ensures !SaveCurrent(st, today, d).SavedOk? ==> r.state == st
  {
    var p := SaveCurrent(st, today, d);
    FailedSaveKeepsStore(st, today, d);
    if !p.SavedOk? then NotSaved(st, p)
    else Finished(if printOk then Succeeded else Failed, Clear(st.(db := p.db)))
  }

  /** `print_thermal_receipt`, where `printOk` says whether the thermal print succeeded. */
  function PrintThermal(st: State, today: string, d: Details, printOk: bool): (r: Finished) {
    SaveAndPrint(st, today, d, printOk)
  }

  /** `print_laser_receipt`, where `printOk` says whether the laser print succeeded. */
  function PrintLaser(st: State, today: string, d: Details, printOk: bool): (r: Finished) {
    SaveAndPrint(st, today, d, printOk)
  }

  /** An empty list is refused before anything is built or saved. */
  lemma EmptyRefused(st: State, today: string, d: Details, ok: bool)
    requires st.items == []
    ensures SaveAndGenerate(st, today, d, ok) == Finished(Failed, st)
    ensures PrintThermal(st, today, d, ok) == Finished(Failed, st)
    ensures PrintLaser(st, today, d, ok) == Finished(Failed, st)
  {
  }

  /** In the controller the save cannot fail on the counter: the number was
      read from the same counter just before. Only a duplicate number makes it
      fail, and then the store is unchanged. */
  lemma SaveFailsOnlyOnDuplicate(st: State, today: string, d: Details)
    requires SaveCurrent(st, today, d).SaveFailed?
    ensures SaveCurrent(st, today, d).error == Database.DuplicateNumber
    ensures SaveCurrent(st, today, d).db == st.db
  {
  }

  lemma FailedSaveKeepsStore(st: State, today: string, d: Details)
    ensures SaveCurrent(st, today, d).SaveFailed? ==> SaveCurrent(st, today, d).db == st.db
  {
    if SaveCurrent(st, today, d).SaveFailed? {
      SaveFailsOnlyOnDuplicate(st, today, d);
    }
  }

  /** The receipt `SaveCurrent` saves and the store it leaves, spelled out. */
  lemma SavedParts(st: State, today: string, d: Details)
    requires SaveCurrent(st, today, d).SavedOk?
    ensures var p := SaveCurrent(st, today, d);
      && Database.NextReceiptNumber(st.db).Some?
      && p.receipt == BuildReceipt(st, Database.NextReceiptNumber(st.db).value, today, d)
      && !Database.NumberTaken(st.db, p.receipt.receiptNumber)
      && p.db == Database.SaveReceipt(st.db, p.receipt).db
  {
  }

  /** Saving through the controller advances the counter by one. */
  lemma SavedAdvancesCounter(st: State, today: string, d: Details)
    requires SaveCurrent(st, today, d).SavedOk?
    ensures Database.Counter(SaveCurrent(st, today, d).db) == Some(Database.Counter(st.db).value + 1)
  {
    SavedParts(st, today, d);
    var p := SaveCurrent(st, today, d);
    Database.SaveAdvancesCounter(st.db, p.receipt);
  }

  /** When the save fails the items stay as they were, on every path. */
  lemma SaveFailureKeepsItems(st: State, today: string, d: Details, ok: bool)
    requires !SaveCurrent(st, today, d).SavedOk?
    ensures SaveAndGenerate(st, today, d, ok).state.items == st.items
    ensures PrintThermal(st, today, d, ok).state.items == st.items
    ensures PrintLaser(st, today, d, ok).state.items == st.items
    ensures SaveAndGenerate(st, today, d, ok).status != Succeeded
    ensures PrintThermal(st, today, d, ok).status != Succeeded
    ensures PrintLaser(st, today, d, ok).status != Succeeded
  {
  }

  /** After a successful save, the PDF path clears the items exactly when the
      PDF was produced, and the print paths clear them in every case. */
  lemma ClearingRules(st: State, today: string, d: Details, ok: bool)
    requires SaveCurrent(st, today, d).SavedOk?
    ensures (SaveAndGenerate(st, today, d, ok).state.items == []) <==> ok || st.items == []
    ensures SaveAndGenerate(st, today, d, ok).status == Succeeded <==> ok
    ensures PrintThermal(st, today, d, ok).state.items == []
    ensures PrintLaser(st, today, d, ok).state.items == []
    ensures PrintThermal(st, today, d, ok).status == Succeeded <==> ok
    ensures PrintLaser(st, today, d, ok).status == Succeeded <==> ok
  {
  }

  /** Once saved, the receipt stays in the history of the store each finishing
      operation returns, whether or not the PDF or the print succeeded. */
  lemma SavedReceiptKept(st: State, today: string, d: Details, ok: bool)
    requires SaveCurrent(st, today, d).SavedOk?
    ensures var rc := SaveCurrent(st, today, d).receipt;
      && Database.InHistory(SaveAndGenerate(st, today, d, ok).state.db, st.db, rc)
      && Database.InHistory(PrintThermal(st, today, d, ok).state.db, st.db, rc)
      && Database.InHistory(PrintLaser(st, today, d, ok).state.db, st.db, rc)
  {
    var p := SaveCurrent(st, today, d);
    SavedParts(st, today, d);
    Database.SavedInHistory(st.db, p.receipt);
    assert Database.InHistory(p.db, st.db, p.receipt);
  }

  /** Success means the receipt was saved into the returned store and the list cleared. */
  lemma SuccessMeansSaved(st: State, today: string, d: Details, ok: bool)
    ensures SaveAndGenerate(st, today, d, ok).status == Succeeded ==>
      && SaveCurrent(st, today, d).SavedOk? && SaveAndGenerate(st, today, d, ok).state.items == []
      && Database.InHistory(SaveAndGenerate(st, today, d, ok).state.db, st.db, SaveCurrent(st, today, d).receipt)
    ensures PrintThermal(st, today, d, ok).status == Succeeded ==>
      && SaveCurrent(st, today, d).SavedOk? && PrintThermal(st, today, d, ok).state.items == []
      && Database.InHistory(PrintThermal(st, today, d, ok).state.db, st.db, SaveCurrent(st, today, d).receipt)
    ensures PrintLaser(st, today, d, ok).status == Succeeded ==>
      && SaveCurrent(st, today, d).SavedOk? && PrintLaser(st, today, d, ok).state.items == []
      && Database.InHistory(PrintLaser(st, today, d, ok).state.db, st.db, SaveCurrent(st, today, d).receipt)
  {
    if SaveCurrent(st, today, d).SavedOk? {
      SavedReceiptKept(st, today, d, ok);
    }
  }
}

=== FILE: receipts.dfy ===
/**
 The records the application passes around: a receipt line (`item`), the
 receipt dictionary built by the controller and read by the printers, and the
 settings dictionary. Money and quantities are whole numbers.
 */
module Receipts {
  import opened Wrappers
  import Numerals

  /** One line of a receipt: `{'name', 'quantity', 'unit_price', 'total'}`. */
  datatype Item = Item(name: string, quantity: int, unitPrice: int, total: int)

  /** The receipt dictionary. The three `Option` fields are the keys the
      printers and the database read with `dict.get`; `None` is an absent key. */
  datatype ReceiptData = ReceiptData(
    receiptNumber: string,
    date: string,
    clientName: Option<string>,
    clientPhone: Option<string>,
    items: seq<Item>,
    total: int,
    paymentMethod: Option<string>,
    notes: Option<string>)

  /** The settings table as the printers receive it (`get_all_settings`). */
  type Settings = map<string, string>

  /** `settings.get(key, default)`. */
  function Setting(settings: Settings, key: string, default: string): (r: string)
    ensures key in settings ==> r == settings[key]
    ensures key !in settings ==> r == default
  {
    if key in settings then settings[key] else default
  }

  /** `sum(item['total'] for item in items)`. */
  function ItemsTotal(items: seq<Item>): int {
    if items == [] then 0 else ItemsTotal(items[..|items| - 1]) + items[|items| - 1].total
  }

  /** The total of a list with one more item is the old total plus its total. */
  lemma ItemsTotalAppend(items: seq<Item>, it: Item)
    ensures ItemsTotal(items + [it]) == ItemsTotal(items) + it.total
  {
    assert (items + [it])[..|items|] == items;
  }

  /** The total of two consecutive runs of items is the sum of their totals. */
  lemma {:induction false} ItemsTotalConcat(a: seq<Item>, b: seq<Item>)
    ensures ItemsTotal(a + b) == ItemsTotal(a) + ItemsTotal(b)
    decreases |b|
  {
    if b == [] {
      assert a + b == a;
    } else {
      var b' := b[..|b| - 1];
      assert a + b == (a + b') + [b[|b| - 1]];
      ItemsTotalAppend(a + b', b[|b| - 1]);
      ItemsTotalConcat(a, b');
      ItemsTotalAppend(b', b[|b| - 1]);
      assert b' + [b[|b| - 1]] == b;
    }
  }

  /** The detail line printed under an item's name:
      `   {qty:.0f} x {unit:,.0f} {currency} = {total:,.0f} {currency}`. */
  function DetailLine(it: Item, currency: string): string {
    "   " + Numerals.IntToString(it.quantity) + " x " + Numerals.FormatAmount(it.unitPrice)
      + " " + currency + " = " + Numerals.FormatAmount(it.total) + " " + currency
  }

  /** The numbered name line `{i}. {name}`. */
  function NameLine(i: nat, name: string): string {
    Numerals.IntToString(i) + ". " + name
  }
}

=== FILE: seqs.dfy ===
/** Identities about sequence concatenation, stated once and used where a
    proof would otherwise have to rediscover them in a crowded context. */
module Seqs {

  lemma AppendAssoc<T>(a: seq<T>, b: seq<T>, c: seq<T>)
    ensures (a + b) + c == a + (b + c)
  {
  }

  /** The two halves of a concatenation are recovered by slicing. */
  lemma Halves<T>(a: seq<T>, b: seq<T>)
    ensures (a + b)[..|a|] == a && (a + b)[|a|..] == b
  {
  }

  lemma DropFirst<T>(xs: seq<T>, k: nat)
    requires k < |xs|
    ensures xs[k..] == [xs[k]] + xs[k + 1..]
  {
  }

  /** Indexing into the middle part of a three-part concatenation. */
  lemma InMiddle<T>(a: seq<T>, b: seq<T>, c: seq<T>, k: nat)
    requires k < |b|
    ensures |a| + k < |a + b + c| && (a + b + c)[|a| + k] == b[k]
  {
  }

  /** `[x]` when `present`, otherwise nothing: a line that is printed only when
      its setting or field is filled in. */
  function Optional<T>(present: bool, x: T): (r: seq<T>)
    ensures |r| == (if present then 1 else 0)
    ensures present ==> r[0] == x
  {
    if present then [x] else []
  }

}

=== FILE: text.dfy ===
/**
 Character classes and the handful of Python `str` operations the receipt
 formatters rely on: `upper`/`lower`/`capitalize`, `strip`, `split()` (on
 whitespace runs), `split(sep)`, `sep.join`, `center`, `in` (substring) and
 `c * n`.
 */
module Text {
  import Seqs

  /** Python's `str.isspace`: the characters `split()` and `strip()` treat as whitespace. */
  predicate IsSpace(c: char) {
    || c == ' '
    || ('\t' <= c <= '\r')
    || ('\U{1C}' <= c <= '\U{1F}')
    || c == '\U{85}' || c == '\U{A0}' || c == '\U{1680}'
    || ('\U{2000}' <= c <= '\U{200A}')
    || c == '\U{2028}' || c == '\U{2029}' || c == '\U{202F}' || c == '\U{205F}' || c == '\U{3000}'
  }

  /** Letters with a one-character upper-case partner in the modelled case map
      (ASCII and the Latin-1 letters à..þ except the division sign). */
  predicate IsLowerLetter(c: char) {
    ('a' <= c <= 'z') || ('\U{E0}' <= c <= '\U{FE}' && c != '\U{F7}')
  }

  predicate IsUpperLetter(c: char) {
    ('A' <= c <= 'Z') || ('\U{C0}' <= c <= '\U{DE}' && c != '\U{D7}')
  }

  function UpperChar(c: char): (u: char)
    ensures !IsLowerLetter(u)
    ensures IsSpace(u) <==> IsSpace(c)
    ensures IsLowerLetter(c) ==> IsUpperLetter(u) && LowerChar(u) == c
    ensures !IsLowerLetter(c) ==> u == c
  {
    if IsLowerLetter(c) then (c as int - 32) as char else c
  }

  function LowerChar(c: char): (l: char)
    ensures !IsUpperLetter(l)
    ensures IsSpace(l) <==> IsSpace(c)
    ensures !IsUpperLetter(c) ==> l == c
  {
    if IsUpperLetter(c) then (c as int + 32) as char else c
  }

  /** `s.upper()` under the modelled case map. */
  function Upper(s: string): (u: string)
    ensures |u| == |s|
    ensures forall i :: 0 <= i < |s| ==> u[i] == UpperChar(s[i])
  {
    seq(|s|, i requires 0 <= i < |s| => UpperChar(s[i]))
  }

  /** `s.lower()` under the modelled case map. */
  function Lower(s: string): (l: string)
    ensures |l| == |s|
    ensures forall i :: 0 <= i < |s| ==> l[i] == LowerChar(s[i])
  {
    seq(|s|, i requires 0 <= i < |s| => LowerChar(s[i]))
  }

  /** `s.capitalize()`: first character upper-cased, the rest lower-cased. */
  function Capitalize(s: string): (r: string)
    ensures |r| == |s|
    ensures s != [] ==> r[0] == UpperChar(s[0]) && r[1..] == Lower(s[1..])
  {
    if s == [] then [] else [UpperChar(s[0])] + Lower(s[1..])
  }

  lemma UpperIdempotent(s: string)
    ensures Upper(Upper(s)) == Upper(s)
  {
  }

  lemma UpperIgnoresLower(s: string)
    ensures Upper(Lower(s)) == Upper(s)
  {
    forall i | 0 <= i < |s|
      ensures UpperChar(LowerChar(s[i])) == UpperChar(s[i])
    {
      var c := s[i];
      if IsUpperLetter(c) {
        assert LowerChar(c) == (c as int + 32) as char;
      }
    }
  }

  lemma CapitalizeIdempotent(s: string)
    ensures Capitalize(Capitalize(s)) == Capitalize(s)
  {
    if s != [] {
      assert Lower(Lower(s[1..])) == Lower(s[1..]);
    }
  }

  /** Case mapping keeps a word a word. */
  lemma CaseKeepsWord(w: string)
    requires IsWord(w)
    ensures IsWord(Upper(w)) && IsWord(Capitalize(w))
  {
    var c := Capitalize(w);
    forall i | 0 <= i < |c|
      ensures !IsSpace(c[i])
    {
      if i > 0 {
        assert c[i] == Lower(w[1..])[i - 1] == LowerChar(w[i]);
      }
    }
  }

  /** `c * n`. */
  function Repeat(c: char, n: nat): (r: string)
    ensures |r| == n
    ensures forall i :: 0 <= i < n ==> r[i] == c
  {
    seq(n, _ => c)
  }

  // ---------------------------------------------------------------------
  // Whitespace splitting and stripping
  // ---------------------------------------------------------------------

  /** A token produced by `split()`: non-empty, no whitespace. */
  predicate IsWord(w: string) {
    w != [] && forall i :: 0 <= i < |w| ==> !IsSpace(w[i])
  }

  predicate AllSpace(s: string) {
    forall i :: 0 <= i < |s| ==> IsSpace(s[i])
  }

  /** Length of the longest whitespace-free prefix of `s`. */
  function WordLen(s: string): (n: nat)
    ensures n <= |s|
    ensures forall i :: 0 <= i < n ==> !IsSpace(s[i])
    ensures n < |s| ==> IsSpace(s[n])
  {
    if s == [] || IsSpace(s[0]) then 0 else 1 + WordLen(s[1..])
  }

  /** `s.split()`: the maximal whitespace-free runs of `s`, left to right. */
  function Words(s: string): (ws: seq<string>)
    ensures forall k :: 0 <= k < |ws| ==> IsWord(ws[k])
    ensures ws == [] <==> AllSpace(s)
    decreases |s|
  {
    if s == [] then []
    else if IsSpace(s[0]) then Words(s[1..])
    else
      var n := WordLen(s);
      [s[..n]] + Words(s[n..])
  }

  function TrimLeft(s: string): (r: string)
    ensures |r| <= |s| && r == s[|s| - |r|..]
    ensures r != [] ==> !IsSpace(r[0])
    ensures AllSpace(s[..|s| - |r|])
  {
    if s != [] && IsSpace(s[0]) then
      var t := s[1..];
      var r := TrimLeft(t);
      assert s[..|s| - |r|] == [s[0]] + t[..|t| - |r|];
      r
    else s
  }

  function TrimRight(s: string): (r: string)
    ensures |r| <= |s| && r == s[..|r|]
    ensures r != [] ==> !IsSpace(r[|r| - 1])
    ensures AllSpace(s[|r|..])
  {
    if s != [] && IsSpace(s[|s| - 1]) then
      var t := s[..|s| - 1];
      var r := TrimRight(t);
      assert s[|r|..] == t[|r|..] + [s[|s| - 1]];
      r
    else s
  }

  /** `s.strip()`: `s` without its leading and trailing whitespace. */
  function Strip(s: string): (r: string)
    ensures r != [] ==> !IsSpace(r[0]) && !IsSpace(r[|r| - 1])
    ensures r == [] <==> AllSpace(s)
  {
    var t := TrimLeft(s);
    assert t == [] ==> AllSpace(s) by {
      if t == [] { assert s[..|s|] == s; }
    }
    assert AllSpace(s) ==> AllSpace(t);
    TrimRight(t)
  }

  /** Text without leading or trailing whitespace is its own strip. */
  lemma StripKeeps(s: string)
    requires s != [] && !IsSpace(s[0]) && !IsSpace(s[|s| - 1])
    ensures Strip(s) == s
  {
    assert TrimLeft(s) == s;
    assert TrimRight(s) == s;
  }

  /** Stripping twice is stripping once. */
  lemma StripIdempotent(s: string)
    ensures Strip(Strip(s)) == Strip(s)
  {
    if Strip(s) != [] {
      StripKeeps(Strip(s));
    }
  }

  /** `sep.join(parts)`. */
  function Join(parts: seq<string>, sep: string): string {
    if |parts| == 0 then ""
    else if |parts| == 1 then parts[0]
    else parts[0] + sep + Join(parts[1..], sep)
  }

  lemma {:induction false} WordLenOfWord(w: string, rest: string)
    requires IsWord(w)
    requires rest == [] || IsSpace(rest[0])
    ensures WordLen(w + rest) == |w|
  {
    var s := w + rest;
    assert forall i :: 0 <= i < |w| ==> s[i] == w[i];
    assert rest != [] ==> s[|w|] == rest[0];
  }

  /** Splitting a single-space join of tokens gives the tokens back. */
  lemma {:induction false} WordsOfJoin(ws: seq<string>)
    requires forall k :: 0 <= k < |ws| ==> IsWord(ws[k])
    ensures Words(Join(ws, " ")) == ws
    decreases |ws|
  {
    if |ws| == 1 {
      WordsOfWord(ws[0]);
    } else if |ws| > 1 {
      JoinCons(ws, " ");
      WordsOfWordThen(ws[0], Join(ws[1..], " "));
      WordsOfJoin(ws[1..]);
      assert ws == [ws[0]] + ws[1..];
    }
  }

  lemma JoinCons(parts: seq<string>, sep: string)
    requires |parts| > 1
    ensures Join(parts, sep) == parts[0] + (sep + Join(parts[1..], sep))
  {
    Seqs.AppendAssoc(parts[0], sep, Join(parts[1..], sep));
  }

  lemma WordsOfWord(w: string)
    requires IsWord(w)
    ensures Words(w) == [w]
  {
    WordLenOfWord(w, []);
    assert w + [] == w;
    assert w[|w|..] == [];
    assert w[..|w|] == w;
  }

  /** A token, a space, and more text: the token comes first, then the words of the rest. */
  lemma WordsOfWordThen(w: string, rest: string)
    requires IsWord(w)
    ensures Words(w + (" " + rest)) == [w] + Words(rest)
  {
    var s := w + (" " + rest);
    WordLenOfWord(w, " " + rest);
    Seqs.Halves(w, " " + rest);
    Seqs.Halves(" ", rest);
    assert Words(" " + rest) == Words(rest);
  }

  /** A single-space join of tokens is already stripped. */
  lemma {:induction false} JoinOfWordsIsStripped(ws: seq<string>)
    requires |ws| > 0
    requires forall k :: 0 <= k < |ws| ==> IsWord(ws[k])
    ensures Strip(Join(ws, " ")) == Join(ws, " ")
  {
    var s := Join(ws, " ");
    JoinOfWordsEnds(ws);
    assert TrimLeft(s) == s;
    assert TrimRight(s) == s;
  }

  lemma {:induction false} JoinOfWordsEnds(ws: seq<string>)
    requires |ws| > 0
    requires forall k :: 0 <= k < |ws| ==> IsWord(ws[k])
    ensures var s := Join(ws, " "); s != [] && !IsSpace(s[0]) && !IsSpace(s[|s| - 1])
    decreases |ws|
  {
    if |ws| > 1 {
      JoinOfWordsEnds(ws[1..]);
      var rest := Join(ws[1..], " ");
      var s := ws[0] + " " + rest;
      assert s[0] == ws[0][0];
      assert s[|s| - 1] == rest[|rest| - 1];
    }
  }

  lemma {:induction false} WordsSkipsSpace(s: string, c: char)
    requires IsSpace(c)
    ensures Words(s + [c]) == Words(s)
    decreases |s|
  {
    var t := s + [c];
    if s == [] {
      assert t[1..] == [];
    } else if IsSpace(s[0]) {
      assert t[1..] == s[1..] + [c];
      WordsSkipsSpace(s[1..], c);
    } else {
      var n := WordLen(s);
      assert t[0] == s[0];
      var m := WordLen(t);
      assert forall i :: 0 <= i < |s| ==> t[i] == s[i];
      assert t[|s|] == c;
      assert m == n;
      assert t[..m] == s[..n];
      assert t[m..] == s[n..] + [c];
      WordsSkipsSpace(s[n..], c);
    }
  }

  lemma {:induction false} WordsTrimLeft(s: string)
    ensures Words(TrimLeft(s)) == Words(s)
    decreases |s|
  {
    if s != [] && IsSpace(s[0]) {
      WordsTrimLeft(s[1..]);
    }
  }

  lemma {:induction false} WordsTrimRight(s: string)
    ensures Words(TrimRight(s)) == Words(s)
    decreases |s|
  {
    if s != [] && IsSpace(s[|s| - 1]) {
      var p := s[..|s| - 1];
      assert s == p + [s[|s| - 1]];
      WordsSkipsSpace(p, s[|s| - 1]);
      WordsTrimRight(p);
    }
  }

  /** Python's `s.strip().split() == s.split()`. */
  lemma WordsStrip(s: string)
    ensures Words(Strip(s)) == Words(s)
  {
    WordsTrimLeft(s);
    WordsTrimRight(TrimLeft(s));
  }

  // ---------------------------------------------------------------------
  // Splitting on one separator character
  // ---------------------------------------------------------------------

  function CountChar(s: string, c: char): nat {
    if s == [] then 0 else (if s[0] == c then 1 else 0) + CountChar(s[1..], c)
  }

  /** `s.split(c)`: the pieces between occurrences of `c`, empty ones included;
      joining them back with `c` restores `s`. */
  function SplitOn(s: string, c: char): (parts: seq<string>)
    ensures |parts| == CountChar(s, c) + 1
    ensures forall k :: 0 <= k < |parts| ==> c !in parts[k]
    ensures Join(parts, [c]) == s
    decreases |s|
  {
    if s == [] then [""]
    else
      var rest := SplitOn(s[1..], c);
      if s[0] == c then
        assert Join([""] + rest, [c]) == [c] + s[1..] by {
          assert ([""] + rest)[1..] == rest;
        }
        [""] + rest
      else
        var parts := [[s[0]] + rest[0]] + rest[1..];
        assert parts[1..] == rest[1..];
        assert Join(parts, [c]) == s by {
          if |rest| > 1 {
            assert Join(rest, [c]) == rest[0] + [c] + Join(rest[1..], [c]);
          }
        }
        parts
  }

  lemma {:induction false} SplitOnNoSeparator(p: string, c: char)
    requires c !in p
    ensures SplitOn(p, c) == [p]
    decreases |p|
  {
    if p != [] {
      assert p[0] in p;
      assert forall x | x in p[1..] :: x in p;
      SplitOnNoSeparator(p[1..], c);
    }
  }

  lemma {:induction false} SplitOnAfterPiece(p: string, c: char, t: string)
    requires c !in p
    ensures SplitOn(p + [c] + t, c) == [p] + SplitOn(t, c)
    decreases |p|
  {
    var s := p + [c] + t;
    if p == [] {
      assert s[1..] == t;
    } else {
      assert p[0] in p;
      assert forall x | x in p[1..] :: x in p;
      assert s[0] == p[0];
      assert s[1..] == p[1..] + [c] + t;
      SplitOnAfterPiece(p[1..], c, t);
      assert [p[0]] + p[1..] == p;
    }
  }

  /** Joining separator-free pieces with `c` and splitting on `c` gives the pieces back. */
  lemma {:induction false} SplitOnJoin(parts: seq<string>, c: char)
    requires |parts| > 0
    requires forall k :: 0 <= k < |parts| ==> c !in parts[k]
    ensures SplitOn(Join(parts, [c]), c) == parts
    decreases |parts|
  {
    if |parts| == 1 {
      SplitOnNoSeparator(parts[0], c);
    } else {
      SplitOnAfterPiece(parts[0], c, Join(parts[1..], [c]));
      SplitOnJoin(parts[1..], c);
      assert parts == [parts[0]] + parts[1..];
    }
  }

  // ---------------------------------------------------------------------
  // Fixed-width helpers
  // ---------------------------------------------------------------------

  /** Left padding `str.center` uses: CPython gives the odd extra space to the
      left only when both the margin and the width are odd. */
  function CenterLeftPad(len: nat, width: nat): nat
    requires len < width
  {
    var marg := width - len;
    marg / 2 + (if marg % 2 == 1 && width % 2 == 1 then 1 else 0)
  }

  /** `s.center(width)`. */
  function Center(s: string, width: nat): (r: string)
    ensures |s| >= width ==> r == s
    ensures |s| < width ==>
      var l := CenterLeftPad(|s|, width);
      && |r| == width
      && r[l..l + |s|] == s
      && AllSpace(r[..l]) && AllSpace(r[l + |s|..])
    ensures |s| < width && width % 2 == 0 ==> CenterLeftPad(|s|, width) == (width - |s|) / 2
  {
    if |s| >= width then s
    else
      var l := CenterLeftPad(|s|, width);
      var r := Repeat(' ', l) + s + Repeat(' ', width - |s| - l);
      assert r[l..l + |s|] == s;
      r
  }

  /** `s[:max - 3] + "..."` when `s` is longer than `max`, else `s`. */
  function Truncate(s: string, max: nat): (r: string)
    requires max >= 3
    ensures |r| <= max
    ensures |s| <= max ==> r == s
    ensures |s| > max ==> |r| == max
  {
    if |s| > max then s[..max - 3] + "..." else s
  }

  /** A text longer than `max` keeps its first `max - 3` characters and ends in "...". */
  lemma TruncateShape(s: string, max: nat)
    requires max >= 3 && |s| > max
    ensures Truncate(s, max)[..max - 3] == s[..max - 3]
    ensures Truncate(s, max)[max - 3..] == "..."
  {
    var r := Truncate(s, max);
    assert r == s[..max - 3] + "...";
  }

  /** Truncating twice to the same bound changes nothing more. */
  lemma TruncateIdempotent(s: string, max: nat)
    requires max >= 3
    ensures Truncate(Truncate(s, max), max) == Truncate(s, max)
  {
  }

  // ---------------------------------------------------------------------
  // Substring search (Python's `needle in hay`)
  // ---------------------------------------------------------------------

  predicate StartsWith(s: string, p: string) {
    |p| <= |s| && s[..|p|] == p
  }

  /** `needle` occurs in `hay` starting at index `i`. */
  predicate OccursAt(hay: string, needle: string, i: int) {
    0 <= i <= |hay| - |needle| && hay[i..i + |needle|] == needle
  }

  predicate Contains(hay: string, needle: string)
    decreases |hay|
  {
    StartsWith(hay, needle) || (hay != [] && Contains(hay[1..], needle))
  }

  /** `needle in hay` holds exactly when `needle` occurs at some index of `hay`. */
  lemma {:induction false} ContainsIff(hay: string, needle: string)
    ensures Contains(hay, needle) <==> exists i :: OccursAt(hay, needle, i)
    decreases |hay|
  {
    if StartsWith(hay, needle) {
      assert OccursAt(hay, needle, 0);
    } else if hay != [] {
      ContainsIff(hay[1..], needle);
      if exists i :: OccursAt(hay, needle, i) {
        var i :| OccursAt(hay, needle, i);
        assert i != 0;
        assert OccursAt(hay[1..], needle, i - 1) by {
          assert hay[1..][i - 1..i - 1 + |needle|] == hay[i..i + |needle|];
        }
      }
      if Contains(hay[1..], needle) {
        var j :| OccursAt(hay[1..], needle, j);
        assert OccursAt(hay, needle, j + 1) by {
          assert hay[1..][j..j + |needle|] == hay[j + 1..j + 1 + |needle|];
        }
      }
    } else {
      assert forall i :: OccursAt(hay, needle, i) ==> i == 0;
    }
  }
}

=== FILE: thermal_printer.dfy ===
/**
 The receipt sent to the USB thermal printer (ESC/POS). The printer object is
 modelled as a recorder: printing a receipt yields the list of commands it
 would have received, in order. Styling commands (`set(bold=…, align=…)`)
 change no text and are not recorded.

 The first rows pair the client (left) with the company (right) using
 `side_by_side`; then come the number and date, the items (a numbered name
 line and a detail line each), the total, the payment method and the thanks.
 */
module ThermalPrinter {
  import opened Wrappers
  import opened Text
  import Numerals
  import Dates
  import opened Receipts
  import Seqs

  /** The configured printer: paper width in millimetres and characters per line. */
  datatype Printer = Printer(settings: Settings, paperWidth: int, lineWidth: nat)

  /** `ThermalPrinter(settings)`: `int(settings.get('paper_width', '58'))`
      raises on text that is not a number (`None`); 58 mm paper holds 32
      characters a line, any other width 48. */
  function NewPrinter(settings: Settings): (p: Option<Printer>)
    ensures p.None? <==> Numerals.ParseInt(Setting(settings, "paper_width", "58")).None?
    ensures p.Some? ==>
      && p.value.settings == settings
      && Numerals.ParseInt(Setting(settings, "paper_width", "58")) == Some(p.value.paperWidth)
      && (p.value.paperWidth == 58 ==> p.value.lineWidth == 32)
      && (p.value.paperWidth != 58 ==> p.value.lineWidth == 48)
  {
    var paper :- Numerals.ParseInt(Setting(settings, "paper_width", "58"));
    Some(Printer(settings, paper, if paper == 58 then 32 else 48))
  }

  /** With no `paper_width` setting the printer is the 58 mm, 32-column one. */
  lemma DefaultPaper(settings: Settings)
    requires "paper_width" !in settings
    ensures NewPrinter(settings) == Some(Printer(settings, 58, 32))
  {
    Numerals.ParseDigits("58");
  }

  /** Longest item name printed without truncation. */
  function MaxNameChars(p: Printer): nat {
    if p.paperWidth == 58 then 30 else 45
  }

  // ---------------------------------------------------------------------
  // Two texts on one line
  // ---------------------------------------------------------------------

  /** One operand of `side_by_side`, stripped and cut to its share of the line. */
  function Fit(s: string, share: nat): (r: string)
    requires share >= 3
    ensures |r| <= share
  {
    var t := Strip(s);
    if |t| > share then t[..share - 3] + "..." else t
  }

  /** `Fit` is `Truncate` applied to the stripped text. */
  lemma FitIsTruncate(s: string, share: nat)
    requires share >= 3
    ensures Fit(s, share) == Truncate(Strip(s), share)
  {
  }

  /** An operand within its share is only stripped; a longer one keeps its
      first `share - 3` characters and ends in "...", filling the share exactly. */
  lemma FitShape(s: string, share: nat)
    requires share >= 3
    ensures var r := Fit(s, share);
      && (|Strip(s)| <= share ==> r == Strip(s))
      && (|Strip(s)| > share ==>
            |r| == share && r[..share - 3] == Strip(s)[..share - 3] && r[share - 3..] == "...")
  {
  }

  function Max(a: int, b: int): int {
    if a >= b then a else b
  }

  /** The number of spaces between the two texts: what is left of the line, but at least one. */
  function Gap(w: nat, a: nat, b: nat): (n: nat)
    ensures n >= 1
    ensures a + n + b == Max(w, a + b + 1)
  {
    if w - a - b < 1 then 1 else w - a - b
  }

  /** `side_by_side(left, right)` on a line of `w` characters: the left text
      gets `w // 2` columns and the right text the rest; each is stripped and
      cut to its share (`Fit`), and the row is as wide as the line unless the
      two texts leave no room for the single space they always get. */
  function SideBySide(w: nat, left: string, right: string): (row: string)
    requires w >= 6
    ensures |row| == Max(w, |Fit(left, w / 2)| + |Fit(right, w - w / 2)| + 1) + 1
  {
    Spread(w, Fit(left, w / 2), Fit(right, w - w / 2))
  }

  /** Two fitted texts on one row, padded apart by `Gap`. */
  function Spread(w: nat, l: string, r: string): (row: string)
    ensures |row| == Max(w, |l| + |r| + 1) + 1
  {
    l + Repeat(' ', Gap(w, |l|, |r|)) + r + "\n"
  }

  /** The row is the left text, at least one space, the right text and a newline. */
  lemma SpreadLayout(w: nat, l: string, r: string)
    ensures var row := Spread(w, l, r); var n := |row| - |l| - |r| - 1;
      && n >= 1
      && row == l + Repeat(' ', n) + r + "\n"
  {
  }

  /** When both texts fit in their shares with room to spare, the row is
      exactly one line wide (plus the newline). */
  lemma SideBySideFits(w: nat, left: string, right: string)
    requires w >= 6
    requires |Strip(left)| + |Strip(right)| < w
    requires |Strip(left)| <= w / 2 && |Strip(right)| <= w - w / 2
    ensures |SideBySide(w, left, right)| == w + 1
  {
    FitShape(left, w / 2);
    FitShape(right, w - w / 2);
  }

  /** When both texts fill their shares exactly, the single separating space
      makes the row one column wider than the line. */
  lemma SideBySideFull(w: nat, left: string, right: string)
    requires w >= 6
    requires |Strip(left)| >= w / 2 && |Strip(right)| >= w - w / 2
    ensures |SideBySide(w, left, right)| == w + 2
  {
    FitShape(left, w / 2);
    FitShape(right, w - w / 2);
  }

  /** Surrounding whitespace makes no difference. */
  lemma SideBySideStrips(w: nat, left: string, right: string)
    requires w >= 6
    ensures SideBySide(w, Strip(left), Strip(right)) == SideBySide(w, left, right)
  {
    var l := Fit(left, w / 2);
    var r := Fit(right, w - w / 2);
    FitStrips(left, w / 2);
    FitStrips(right, w - w / 2);
    SideBySideOf(w, Strip(left), Strip(right), l, r);
    SideBySideOf(w, left, right, l, r);
  }

  /** `SideBySide` seen through known fitted texts. */
  lemma SideBySideOf(w: nat, left: string, right: string, l: string, r: string)
    requires w >= 6 && Fit(left, w / 2) == l && Fit(right, w - w / 2) == r
    ensures SideBySide(w, left, right) == Spread(w, l, r)
  {
  }

  lemma FitStrips(s: string, share: nat)
    requires share >= 3
    ensures Fit(Strip(s), share) == Fit(s, share)
  {
    var t := Strip(s);
    StripIdempotent(s);
    FitOfStripped(t, share, t);
    FitOfStripped(s, share, t);
  }

  /** `Fit` seen through a known stripped text. */
  lemma FitOfStripped(s: string, share: nat, t: string)
    requires share >= 3 && Strip(s) == t
    ensures Fit(s, share) == if |t| > share then t[..share - 3] + "..." else t
  {
  }

  // ---------------------------------------------------------------------
  // The command stream
  // ---------------------------------------------------------------------

  /** One command sent to the printer. */
  datatype Command =
    | Row(left: string, right: string)        // `text(side_by_side(left, right))`
    | Separator(c: char)                      // `text(c * line_width + "\n")`
    | Literal(s: string)                      // `text(s)`
    | ItemName(index: nat, name: string)      // `text(f"{i}. {name}\n")`, name cut to `MaxNameChars`
    | ItemDetail(item: Item, currency: string) // the detail line and a blank line
    | Cut                                     // `cut()`

  /** The text a command prints (`Cut` prints none). */
  function Render(p: Printer, c: Command): (t: string)
    requires p.lineWidth >= 6
    ensures c.Separator? ==> |t| == p.lineWidth + 1 && t[|t| - 1] == '\n'
    ensures c.Cut? ==> t == ""
  {
    match c
    case Row(left, right) => SideBySide(p.lineWidth, left, right)
    case Separator(ch) => Repeat(ch, p.lineWidth) + "\n"
    case Literal(s) => s
    case ItemName(i, name) => NameLine(i, Truncate(name, MaxNameChars(p))) + "\n"
    case ItemDetail(it, currency) => DetailLine(it, currency) + "\n\n"
    case Cut => ""
  }

  /** One right-hand row per piece of `company_address.split("\n")`, empty pieces included. */
  function AddressRows(pieces: seq<string>): (rows: seq<Command>)
    ensures |rows| == |pieces|
    ensures forall k :: 0 <= k < |pieces| ==> rows[k] == Row("", pieces[k])
  {
    seq(|pieces|, k requires 0 <= k < |pieces| => Row("", pieces[k]))
  }

  /** Client and company side by side: the client's name, phone and the
      company's phone, NIF and (when set) STAT. */
  function PartyRows(p: Printer, r: ReceiptData): (cs: seq<Command>)
    ensures |cs| == 3 + (if Setting(p.settings, "company_stat", "") != "" then 1 else 0)
  {
    var nif := Setting(p.settings, "company_nif", "");
    var stat := Setting(p.settings, "company_stat", "");
    [Row("CLIENT", Setting(p.settings, "company_name", "")),
     Row(r.clientName.GetOr("(Non sp\U{E9}cifi\U{E9})"), Setting(p.settings, "company_phone", "")),
     Row(r.clientPhone.GetOr(""), if nif != "" then "NIF: " + nif else "")]
    + Seqs.Optional(stat != "", Row("", "STAT: " + stat))
  }

  /** The receipt number and date side by side, framed by rules, and the list heading. */
  function NumberRows(r: ReceiptData): (cs: seq<Command>)
    ensures |cs| == 8
  {
    [Literal("\n"), Separator('-'), Literal("\n"),
     Row("No: " + r.receiptNumber, "Date: " + Dates.PrintedDate(r.date)),
     Literal("\n"), Separator('='), Literal("\n"), Literal("Liste des articles\n\n")]
  }

  /** The pieces of the company address. */
  function AddressPieces(p: Printer): seq<string> {
    SplitOn(Setting(p.settings, "company_address", ""), '\n')
  }

  /** Everything before the items. */
  function OpeningCommands(p: Printer, r: ReceiptData): (cs: seq<Command>)
    ensures |cs| == 11 + (if Setting(p.settings, "company_stat", "") != "" then 1 else 0) + |AddressPieces(p)|
  {
    PartyRows(p, r) + AddressRows(AddressPieces(p)) + NumberRows(r)
  }

  /** The two commands of every item from index `k` on, numbered from 1. */
  function ItemCommands(items: seq<Item>, currency: string, k: nat): (cs: seq<Command>)
    requires k <= |items|
    ensures |cs| == 2 * (|items| - k)
    ensures forall i :: k <= i < |items| ==>
      && cs[2 * (i - k)] == ItemName(i + 1, items[i].name)
      && cs[2 * (i - k) + 1] == ItemDetail(items[i], currency)
    decreases |items| - k
  {
    if k == |items| then []
    else
      var block := [ItemName(k + 1, items[k].name), ItemDetail(items[k], currency)];
      var rest := ItemCommands(items, currency, k + 1);
      forall i {:trigger items[i]} | k < i < |items|
        ensures (block + rest)[2 * (i - k)] == rest[2 * (i - k - 1)]
        ensures (block + rest)[2 * (i - k) + 1] == rest[2 * (i - k - 1) + 1]
      {
      }
      block + rest
  }

  /** The total, the payment method, the thanks and the paper cut. */
  function ClosingCommands(r: ReceiptData, currency: string): (cs: seq<Command>)
    ensures |cs| == 10
  {
    [Separator('='), Literal("\n"), Literal("TOTAL A PAYER\n"),
     Literal(Numerals.FormatAmount(r.total) + " " + currency + "\n"),
     Literal("\nPaiement: " + r.paymentMethod.GetOr("Esp\U{E8}ces") + "\n\n"),
     Separator('='), Literal("\nMerci pour votre achat!\n"), Literal("Mankasitraka Tompoko!\n"),
     Literal("\n\n\n"), Cut]
  }

  /** Every command of a successful print, in order. */
  function ReceiptCommands(p: Printer, r: ReceiptData): seq<Command> {
    var currency := Setting(p.settings, "currency", "Ar");
    OpeningCommands(p, r) + ItemCommands(r.items, currency, 0) + ClosingCommands(r, currency)
  }

  /** What `print_receipt` reports and what the printer received. */
  datatype PrintResult = PrintResult(ok: bool, sent: seq<Command>)

  /** `print_receipt`: `connected` says whether a device is already attached or
      `connect()` succeeds. Without one nothing is sent and failure is reported. */
  function PrintReceipt(p: Printer, r: ReceiptData, connected: bool): (res: PrintResult)
    ensures !connected ==> !res.ok && res.sent == []
    ensures connected ==> res.ok && res.sent != [] && res.sent[|res.sent| - 1] == Cut
    ensures connected ==> res.sent == ReceiptCommands(p, r)
  {
    if !connected then PrintResult(false, [])
    else PrintResult(true, ReceiptCommands(p, r))
  }

  /** The text the printer received. */
  function PrintedText(p: Printer, cs: seq<Command>): string
    requires p.lineWidth >= 6
  {
    Concat(Texts(p, cs))
  }

  /** The text of each command, in order. */
  function Texts(p: Printer, cs: seq<Command>): (ts: seq<string>)
    requires p.lineWidth >= 6
    ensures |ts| == |cs| && forall i :: 0 <= i < |cs| ==> ts[i] == Render(p, cs[i])
  {
    seq(|cs|, i requires 0 <= i < |cs| => Render(p, cs[i]))
  }

  /** Texts written one after the other. */
  function Concat(ts: seq<string>): string {
    if ts == [] then "" else Concat(ts[..|ts| - 1]) + ts[|ts| - 1]
  }

  // ---------------------------------------------------------------------
  // Properties of the command stream
  // ---------------------------------------------------------------------

  /** Index of the first item command. */
  function ItemsStart(p: Printer): nat {
    11 + (if Setting(p.settings, "company_stat", "") != "" then 1 else 0) + |AddressPieces(p)|
  }

  /** The number of commands: 21 fixed ones, the STAT row when set, one row
      per address piece and two per item. */
  lemma CommandCount(p: Printer, r: ReceiptData)
    ensures |ReceiptCommands(p, r)| ==
      21 + (if Setting(p.settings, "company_stat", "") != "" then 1 else 0)
      + (CountChar(Setting(p.settings, "company_address", ""), '\n') + 1) + 2 * |r.items|
  {
  }

  /** Item `i` (from 0) is sent as its numbered name and then its detail, in
      input order, right after the list heading. */
  lemma ItemCommandsInOrder(p: Printer, r: ReceiptData, i: nat)
    requires i < |r.items|
    ensures var cs := ReceiptCommands(p, r); var s := ItemsStart(p); var cur := Setting(p.settings, "currency", "Ar");
      && s + 2 * i + 1 < |cs|
      && cs[s + 2 * i] == ItemName(i + 1, r.items[i].name)
      && cs[s + 2 * i + 1] == ItemDetail(r.items[i], cur)
  {
    var cur := Setting(p.settings, "currency", "Ar");
    var o, it, c := OpeningCommands(p, r), ItemCommands(r.items, cur, 0), ClosingCommands(r, cur);
    Seqs.InMiddle(o, it, c, 2 * i);
    Seqs.InMiddle(o, it, c, 2 * i + 1);
  }

  /** Every piece of the address, empty ones included, gets its own row with
      nothing on the left, after the three client rows and the optional STAT row. */
  lemma AddressRowsInOrder(p: Printer, r: ReceiptData, k: nat)
    requires k < |AddressPieces(p)|
    ensures var s := 3 + (if Setting(p.settings, "company_stat", "") != "" then 1 else 0);
      ReceiptCommands(p, r)[s + k] == Row("", AddressPieces(p)[k])
  {
    var cur := Setting(p.settings, "currency", "Ar");
    var a, b, n := PartyRows(p, r), AddressRows(AddressPieces(p)), NumberRows(r);
    var it, c := ItemCommands(r.items, cur, 0), ClosingCommands(r, cur);
    Seqs.AppendAssoc(a + b, n, it);
    Seqs.AppendAssoc(a + b, n + it, c);
    assert ReceiptCommands(p, r) == (a + b) + ((n + it) + c);
    Seqs.InMiddle(a, b, (n + it) + c, k);
  }

  /** An item name longer than the limit (30 characters on 58 mm paper, 45
      otherwise) is cut to three fewer characters followed by "..."; a shorter
      one is printed whole. */
  lemma ItemNameShown(p: Printer, i: nat, name: string)
    requires p.lineWidth >= 6
    ensures var m := MaxNameChars(p);
      && (|name| <= m ==> Render(p, ItemName(i, name)) == NameLine(i, name) + "\n")
      && (|name| > m ==> Render(p, ItemName(i, name)) == NameLine(i, name[..m - 3] + "...") + "\n")
  {
  }

  /** The text sent is the commands' texts one after the other. */
  lemma PrintedTextAppend(p: Printer, a: seq<Command>, b: seq<Command>)
    requires p.lineWidth >= 6
    ensures PrintedText(p, a + b) == PrintedText(p, a) + PrintedText(p, b)
  {
    assert Texts(p, a + b) == Texts(p, a) + Texts(p, b);
    ConcatAppend(Texts(p, a), Texts(p, b));
  }

  lemma {:induction false} ConcatAppend(xs: seq<string>, ys: seq<string>)
    ensures Concat(xs + ys) == Concat(xs) + Concat(ys)
    decreases |ys|
  {
    if ys == [] {
      assert xs + ys == xs;
    } else {
      var ys', y := ys[..|ys| - 1], ys[|ys| - 1];
      assert (xs + ys)[..|xs + ys| - 1] == xs + ys';
      ConcatAppend(xs, ys');
      var a, b := Concat(xs), Concat(ys');
      assert (a + b) + y == a + (b + y);
    }
  }

  /** A connected print sends every item, in input order and numbered from 1,
      as its name and then its detail, among as many commands as the layout has. */
  lemma PrintSendsItems(p: Printer, r: ReceiptData, i: nat)
    requires i < |r.items|
    ensures var cs := PrintReceipt(p, r, true).sent; var s := ItemsStart(p); var cur := Setting(p.settings, "currency", "Ar");
      && |cs| == 21 + (if Setting(p.settings, "company_stat", "") != "" then 1 else 0)
           + (CountChar(Setting(p.settings, "company_address", ""), '\n') + 1) + 2 * |r.items|
      && cs[s + 2 * i] == ItemName(i + 1, r.items[i].name)
      && cs[s + 2 * i + 1] == ItemDetail(r.items[i], cur)
  {
    CommandCount(p, r);
    ItemCommandsInOrder(p, r, i);
  }
}

=== FILE: wrappers.dfy ===
/** Small failure-carrying datatypes shared by the whole model. */
module Wrappers {

  datatype Option<+T> = None | Some(value: T) {

    /** The value in `Some`, or `default` for `None` (Python's `dict.get(key, default)`). */
    function GetOr(default: T): T {
      match this
      case Some(v) => v
      case None => default
    }

    predicate IsFailure() {
      None?
    }

    function PropagateFailure<U>(): Option<U>
      requires None?
    {
      None
    }

    function Extract(): T
      requires Some?
    {
      value
    }
  }
}
